=== FILE: README.md ===
# string-analyzer-api, modelled in Dafny

This project models the core of a small string-analysis HTTP service. It has three parts:

- **The string analyzer** (`analyzeString`) computes a fixed bundle of properties for a submitted string: length, palindrome flag, number of distinct characters, word count, SHA-256 fingerprint and character frequencies.
- **The natural-language parser** (`parseNaturalLanguageQuery`) turns a free-text phrase such as "palindromes longer than 5" into an optional-field filter record, using nine ordered lexical rules.
- **The request handlers** hold the remaining rules:
  - a new value is created only once, a value the database cannot store is refused, and a hash collision on the unique id is refused;
  - lookups and deletions answer "not found" for an absent value;
  - structured query parameters are validated in a fixed order, and the first bad one is reported;
  - a natural-language listing reports conflicting length bounds.

The database becomes a `map` from value to stored record. A query against it becomes the set of records that satisfy a filter. The collection invariant is that every record is the analysis of its key and that ids are pairwise distinct. It stands for the two `unique` indexes of the schema.

Files:

- `wrappers.dfy`: `Option` and `Result`.
- `js_text.dfy`: the JavaScript string primitives the code uses, as module `JsText`. These are the `\s` class, `toLowerCase`, `trim`, `split(/\s+/)`, `includes`, reversal and the UTF-16 `length`.
- `js_number.dfy`: `parseInt` with no radix and decimal rendering, as module `JsNumber`.
- `string_analyzer.dfy`: the analyzer, as module `StringAnalyzer`.
- `natural_language_parser.dfy`: the parser, as module `NaturalLanguageParser`.
- `string_analysis.dfy`: the stored record and the collection invariant, as module `StringAnalysis`.
- `string_controller.dfy`: the handlers, as module `StringController`.

The SHA-256 digest is a foreign call and enters every operation that analyses or stores a value as the parameter `hash`. Strings are sequences of Unicode scalar values. `length` is computed as the UTF-16 length JavaScript reports.

The conflict test of the natural-language listing checks both bounds for JavaScript truthiness, so a bound of 0 never takes part in a conflict. `StringController.HasConflict` follows this, and `StringController.ZeroUpperBoundNotReported` shows the consequence: a positive lower bound together with an upper bound of 0 is not reported, and the listing is simply empty.

The character frequency map is stored as a Mongoose `Map`. Mongoose refuses a `Map` key that starts with '$' or contains '.', when it builds the document. The BSON encoding refuses a key holding the null character, because BSON keys are null-terminated, when the document is saved. The keys are single characters, so a value containing '.', '$' or U+0000 cannot be stored: the handler's catch-all answers 500. `StringController.StoreAnalysis` models this refusal as `UnstorableKey`, after the existence check and before the unique index is consulted.

## Model

| member | source | states |
|---|---|---|
| StringAnalyzer.AnalyzeString | src/utils/stringAnalyzer.ts:12-43 | The fingerprint is the digest of the value itself. What every other field means is stated by `StringAnalyzer.AnalysisMeaning`. |
| StringAnalyzer.AnalysisMeaning | src/utils/stringAnalyzer.ts:12-43 | Each field of the analysis means what the code computes it for. `length` is at least the number of characters, and equals it exactly when no character needs two UTF-16 units. The palindrome flag is the normalized comparison. The frequency map has exactly the characters of the value as keys, each with its number of occurrences. `uniqueCharacters` is the number of keys, at most `length`. `wordCount` is the number of maximal white-space-free runs, at most `length`, and zero exactly for blank values. |
| StringAnalyzer.AnalysisOfEmpty | src/utils/stringAnalyzer.ts:12-43 | The empty string has length 0, is a palindrome, and has no distinct characters, no words and an empty frequency map. |
| StringAnalyzer.PalindromeOfReverse | src/utils/stringAnalyzer.ts:20-21 | A string is a palindrome exactly when its reversal is one. |
| StringAnalyzer.PalindromeIgnoresCase | src/utils/stringAnalyzer.ts:20 | Lower-casing a string never changes its palindrome flag. |
| StringAnalyzer.PalindromeMirror | src/utils/stringAnalyzer.ts:20-21 | The palindrome check holds exactly when each position of the normalized string equals its mirror position. |
| StringAnalyzer.PalindromeExampleCase | src/utils/stringAnalyzer.ts:19-21 | "Racecar" is a palindrome: case is ignored. |
| StringAnalyzer.PalindromeExampleSpace | src/utils/stringAnalyzer.ts:19-21 | "race car" is a palindrome: white space is ignored. |
| StringAnalyzer.PalindromeExamplePunctuation | src/utils/stringAnalyzer.ts:19-21 | "race.car" is not a palindrome: punctuation is kept. |
| StringAnalyzer.LowercaseWordPalindrome | src/utils/stringAnalyzer.ts:20-21 | A lower-case word with no white space that equals its reversal is a palindrome. |
| StringAnalyzer.FrequencyMap | src/utils/stringAnalyzer.ts:30-33 | The counting loop produces a map whose keys are the characters of the value, each mapped to its multiplicity. |
| StringAnalyzer.FrequenciesSumToSize | src/utils/stringAnalyzer.ts:30-33 | The counts of the frequency map add up to the number of characters. |
| StringAnalyzer.FrequencyCountsSumToLength | src/utils/stringAnalyzer.ts:14 | For a value of single-unit characters, the frequency counts add up to the reported `length`. |
| StringAnalyzer.CharSetBound | src/utils/stringAnalyzer.ts:24 | A string has no more distinct characters than characters. |
| StringAnalyzer.WordsAreMaximalRuns | src/utils/stringAnalyzer.ts:27 | Trimming, splitting on white-space runs and dropping empty pieces yields exactly the maximal white-space-free runs, in order. This is checked against an independent definition. |
| StringAnalyzer.TrimEndRuns | src/utils/stringAnalyzer.ts:27 | Trailing white space holds no word. |
| JsText.Utf16Length | src/utils/stringAnalyzer.ts:14 | `length` lies between the number of characters and twice that, and equals the number of characters exactly when all of them are single-unit. |
| JsText.IncludesIffOccurs | src/utils/naturalLanguageParser.ts:14 | `includes` holds exactly when the keyword occurs at some position. |
| JsNumber.ParseInt | src/controllers/stringController.ts:93-96 | `parseInt` gives NaN exactly when, after leading white space, the text does not open with a digit or with a sign and a digit. |
| JsNumber.ParseIntRoundTrip | src/controllers/stringController.ts:92-117 | `parseInt` reads a rendered integer back as that integer, whatever non-digit text follows it, under the decimal reading of `JsNumber.ParseInt`. JavaScript's own `parseInt` agrees whenever that text does not open, after a lone 0, with 'x' or 'X' and a hexadecimal digit. |
| JsNumber.ParseIntSkipsWhitespace | src/controllers/stringController.ts:93 | Leading white space never changes what `parseInt` reads. |
| NaturalLanguageParser.ParseNaturalLanguageQuery | src/utils/naturalLanguageParser.ts:9-62 | Each field is decided by the last rule that fires on it, reading the lower-cased phrase. The palindrome flag is only ever true. A word-count match beats "single word". "at least N characters" beats "longer than N" (N + 1). "at most N characters" beats "shorter than N" (N − 1). "first vowel" beats "contains the letter x". Bounds are at least 0 (lower) and −1 (upper), and the letter is a–z. |
| NaturalLanguageParser.RulesDecideFields | src/utils/naturalLanguageParser.ts:13-61 | Applying the nine rules in order gives the same record as deciding each field independently by its last firing rule. |
| NaturalLanguageParser.ParseIgnoresCase | src/utils/naturalLanguageParser.ts:10 | A phrase and its lower-cased form parse to the same filters. |
| NaturalLanguageParser.FirstMatchIsLeftmost | src/utils/naturalLanguageParser.ts:24-51 | A regular-expression match without the `g` flag reports the capture at a matching position with no match before it. It reports nothing exactly when no position matches. |
| NaturalLanguageParser.LetterMatch | src/utils/naturalLanguageParser.ts:51-54 | The letter captured by "contains the letter x" is a lower-case ASCII letter. |
| NaturalLanguageParser.KeywordNumberAt | src/utils/naturalLanguageParser.ts:24-48 | A match of `keyword (\d+)` ends after at least one digit past the keyword, within the phrase. |
| NaturalLanguageParser.KeywordNumberAtMeans | src/utils/naturalLanguageParser.ts:24-48 | `keyword (\d+)` matches at a position exactly when the keyword stands there followed by a digit. It then captures the longest digit run, read as a decimal number, and ends where a non-digit or the end of the phrase follows. |
| NaturalLanguageParser.LetterAt | src/utils/naturalLanguageParser.ts:51-54 | A match of `contains? (?:the )?letter ([a-z])` starts with "contain" and captures a lower-case ASCII letter. |
| NaturalLanguageParser.KeywordNumberReads | src/utils/naturalLanguageParser.ts:30 | A keyword followed by a rendered number and a non-digit captures that number. |
| NaturalLanguageParser.LongerThanReads | src/utils/naturalLanguageParser.ts:30-33 | A phrase opening with "longer than N" captures N. |
| NaturalLanguageParser.ShorterThanReads | src/utils/naturalLanguageParser.ts:35-38 | A phrase opening with "shorter than N" captures N. |
| NaturalLanguageParser.AtLeastReads | src/utils/naturalLanguageParser.ts:40-43 | "at least N character", wherever it stands in the phrase, captures N. |
| NaturalLanguageParser.AtMostReads | src/utils/naturalLanguageParser.ts:45-48 | "at most N character", wherever it stands in the phrase, captures N. |
| NaturalLanguageParser.WordCountReads | src/utils/naturalLanguageParser.ts:24-27 | A number, any run of white space and "word", wherever they stand in the phrase, capture that number. |
| NaturalLanguageParser.LetterReads | src/utils/naturalLanguageParser.ts:51-54 | "contain" or "contains", an optional "the", "letter " and a lower-case letter, wherever they stand in the phrase, capture that letter. |
| NaturalLanguageParser.RulesNeedKeywords | src/utils/naturalLanguageParser.ts:24-54 | Each pattern rule fires only when its keyword occurs in the phrase. |
| NaturalLanguageParser.LongerThanOfExample | src/utils/naturalLanguageParser.ts:30 | The leftmost "longer than" of "palindrome longer than 5" captures 5. |
| NaturalLanguageParser.ParseExampleWordCount | src/utils/naturalLanguageParser.ts:24-27 | "exactly 3 words" parses to a word count of 3, with nothing else. |
| NaturalLanguageParser.ParseExampleLongerPalindrome | src/utils/naturalLanguageParser.ts:9-62 | "Palindrome longer than 5" parses to the palindrome flag and a lower bound of 6, with nothing else. |
| NaturalLanguageParser.OnlyLongerThanFires | src/utils/naturalLanguageParser.ts:13-61 | A phrase in which only the palindrome keyword and "longer than N" fire yields the flag and a lower bound of N + 1. |
| StringController.ReadValue | src/controllers/stringController.ts:25-34 | A falsy body value is missing. A truthy value that is not a string has the wrong type. Exactly the non-empty strings pass. |
| StringController.StoreAnalysis | src/controllers/stringController.ts:37-57 | A value already stored is refused as existing. A new value with a frequency-map key that Mongoose refuses is refused as unstorable. Any other new value whose digest is already some record's id is refused as a collision. Otherwise the value is added with its well-formed record and every other record is kept. No other refusal is possible. |
| StringController.UnstorableKeyMeans | src/models/StringAnalysis.ts:34-38 | The frequency map of a value has a refused key exactly when the value contains '.', '$' or U+0000. |
| StringController.NullCharacterRefused | src/controllers/stringController.ts:52-57 | "a\0b", when new, is refused as unstorable: its frequency map needs a key holding the null character. |
| StringController.DottedValueRefused | src/controllers/stringController.ts:46-57 | "race.car", when new, is refused as unstorable: its frequency map needs the key ".". |
| StringController.CreateString | src/controllers/stringController.ts:23-58 | The five refusals are exact conditions on the body and the collection, and no other refusal is possible. A success adds exactly one well-formed record, under the body's value, and leaves the rest unchanged. |
| StringController.CreateKeepsValidity | src/models/StringAnalysis.ts:17-27 | Creation preserves the collection invariant: well-formed records with unique values and unique ids. |
| StringController.EmptyValueRefused | src/controllers/stringController.ts:28-30 | The empty string is refused as missing, so it is never stored. |
| StringController.CreateTwiceRefused | src/controllers/stringController.ts:40-57 | A non-empty new value whose digest is no record's id is created exactly when it contains none of '.', '$' and U+0000. Once created, creating it a second time is refused as already existing. |
| StringController.GetString | src/controllers/stringController.ts:60-74 | A lookup fails only with not-found. When keys match values, it succeeds exactly when some stored record has that value, and returns that record. |
| StringController.GetAfterCreate | src/controllers/stringController.ts:40-68 | A non-empty new value whose digest is no record's id is created exactly when it contains none of '.', '$' and U+0000. Once created, it is found with the record that was created. |
| StringController.DeleteString | src/controllers/stringController.ts:196-210 | A deletion fails exactly when the value is absent, with not-found. On success, exactly that value is removed and every other record is kept. |
| StringController.DeleteUndoesCreate | src/controllers/stringController.ts:196-206 | A non-empty new value whose digest is no record's id is created exactly when it contains none of '.', '$' and U+0000. Once created, deleting it again restores the collection exactly. |
| StringController.DeleteRemovesOnlyThat | src/controllers/stringController.ts:196-206 | After a deletion the value is not found, every other lookup is unchanged, and the collection invariant still holds. |
| StringController.FilterDocument | src/controllers/stringController.ts:157-177 | The filter document holds a condition exactly for each present field of the filter record, with that field's value. |
| StringController.DocumentMeansMatches | src/controllers/stringController.ts:157-179 | A record satisfies every condition of the document exactly when it meets the constraint of every present field. |
| StringController.Find | src/controllers/stringController.ts:179 | The query returns exactly the stored records that match the filter. |
| StringController.EmptyFilterSelectsAll | src/controllers/stringController.ts:127 | With no parameter present, every stored record is listed. |
| StringController.StoredRecordMatches | src/controllers/stringController.ts:157-177 | For a record of a valid collection, matching is a statement about its value. It concerns the value's UTF-16 length, palindrome status, number of words and the letters it contains, ignoring case. |
| StringController.CrossedBoundsSelectNothing | src/controllers/stringController.ts:97-106 | A lower length bound above the upper one selects no record. |
| StringController.ReadPalindromeParam | src/controllers/stringController.ts:84-90 | `is_palindrome` must be the text "true" or "false" when present, and reads as true exactly for "true". |
| StringController.ReadIntParam | src/controllers/stringController.ts:92-117 | A length or word-count parameter is refused exactly when `parseInt` of its string form is NaN. Otherwise it is that integer. |
| StringController.ReadCharParam | src/controllers/stringController.ts:119-125 | `contains_character` must be a string one UTF-16 unit long, and reads as that character. |
| StringController.FirstInvalid | src/controllers/stringController.ts:84-125 | The reported parameter is invalid, and every parameter checked before it is valid. |
| StringController.ValidateQuery | src/controllers/stringController.ts:78-125 | Validation succeeds exactly when all five parameters are valid. A failure names the first invalid one in check order. A success yields the filter record that holds exactly the present parameters with their parsed values. |
| StringController.GetAllStrings | src/controllers/stringController.ts:76-139 | The listing fails exactly on an invalid parameter, naming the first one in the order the code checks them. Otherwise the applied filters are exactly the parameters given, and the listing holds exactly the stored records matching them, with their count. |
| StringController.ValidateRendered | src/controllers/stringController.ts:92-99 | A `min_length` given as a rendered integer is applied as that integer, with no other filter. |
| StringController.UnknownParamsIgnored | src/controllers/stringController.ts:78 | Adding a parameter other than the five never changes validation. |
| StringController.OnlyParamsMatter | src/controllers/stringController.ts:78-125 | Two queries that agree on the five parameters validate alike. |
| StringController.StructuredCrossedBoundsEmpty | src/controllers/stringController.ts:92-108 | Crossed structured bounds are not refused: the listing is empty with count 0. |
| StringController.ConflictSelectsNothing | src/controllers/stringController.ts:152-154 | A reported conflict is genuine: that filter would select no record. |
| StringController.ZeroUpperBoundNotReported | src/controllers/stringController.ts:152-154 | A positive lower bound with an upper bound of 0 is not reported as a conflict, yet it selects nothing. |
| StringController.FilterByNaturalLanguage | src/controllers/stringController.ts:141-194 | A missing, empty or non-string query is unparseable. A conflict is reported exactly when both parsed bounds are present and non-zero and the lower exceeds the upper. The request succeeds exactly when the query is a non-empty string whose parse has no conflict. A success echoes the query, reports the parser's filters, and lists exactly the matching records with their count. |

## Left out

- The web framework, the request/response plumbing, `formatResponse`, the 201/200/204 success statuses, and the asynchronous database calls. The collection is a `map`, and a query is a set comprehension.
- The SHA-256 digest itself: `hash` is a parameter, so no property of SHA-256 is assumed beyond being a function.
- `created_at`: the clock is not modelled.
- The catch-all internal-error answers, except two cases, both 500. A frequency-map key that Mongoose or the BSON encoding refuses is modelled as `UnstorableKey`. A digest that is already a stored id is the unique index on `id` rejecting the save, modelled as `IdCollision`. Other database failures are not modelled, and the key rules are taken as stated above, independent of library versions.
- The order of listed records: `Find` returns a set, and the database's order is not specified.
- `StringController.ContainsIgnoringCase`: `contains_character` is used as a case-insensitive regular expression. The model treats it as ASCII case-insensitive containment of that one character. A structured parameter that is a regular-expression metacharacter (".", "*", "\\" …) is not modelled as a pattern. The parser only ever yields the letters a–z, which are literal. A character that is not a valid pattern on its own, such as "(", "[", "*", "+", "?" or "\\", makes the query throw, and the code answers 500. The model lists the records containing that character instead.
- `StringController.GetAllStrings`: "fails exactly on an invalid parameter" leaves out the 500 for a `contains_character` that is not a valid regular expression, described in the line above.
- `JsText.Lower`: `toLowerCase` is modelled for ASCII letters only. Unicode lower-casing and case folding are left out.
- `StringAnalyzer.IsPalindrome`: the code reverses UTF-16 code units, while the model reverses characters. The two differ only on strings with characters outside the Basic Multilingual Plane.
- `JsNumber.ParseInt`: `parseInt` with no radix also accepts a `0x` hexadecimal prefix and loses precision beyond 2^53. The model reads decimal digits into an unbounded integer. So `?min_length=0x` is refused with 400 by the code, because `parseInt("0x")` is NaN, while the model reads it as 0.
- The request body's `value` is a parsed JSON value (`Json`), and numbers are exact reals. Floating-point details do not affect the truthiness test.
- A query-string array or object (`Composite`) is represented by its string coercion only.

=== FILE: js_number.dfy ===
/** JavaScript's `parseInt` with no radix, over unbounded integers, and the
    decimal rendering it inverts. `None` stands for `NaN`. */
module JsNumber {
  import opened Wrappers
  import opened JsText

  function DigitValue(c: char): nat
    requires IsDigit(c)
  {
    c as int - '0' as int
  }

  function DigitChar(d: nat): (c: char)
    requires d < 10
    ensures IsDigit(c) && DigitValue(c) == d
  {
    ('0' as int + d) as char
  }

  /** The value of a run of decimal digits, most significant first. */
  function DecimalValue(ds: string): nat
    requires AllDigits(ds)
  {
    if ds == [] then 0 else DecimalValue(ds[..|ds| - 1]) * 10 + DigitValue(ds[|ds| - 1])
  }

  /** The decimal rendering of a natural number, without leading zeros. */
  function NatToString(n: nat): (s: string)
    ensures s != [] && AllDigits(s)
  {
    if n < 10 then [DigitChar(n)] else NatToString(n / 10) + [DigitChar(n % 10)]
  }

  /** `String(n)` for an integer. */
  function IntToString(n: int): string {
    if n < 0 then "-" + NatToString(-n) else NatToString(n)
  }

  /** `parseInt(s)`: leading white space is skipped, then an optional sign,
      then the longest run of decimal digits; whatever follows is ignored. No
      digit at that point gives `NaN`. */
  function ParseInt(s: string): (r: Option<int>)
    ensures r.None? <==> !StartsWithNumber(TrimStart(s))
  {
    ParseSigned(TrimStart(s))
  }

  /** `t` opens with a digit, or with a sign followed by a digit. */
  predicate StartsWithNumber(t: string) {
    (|t| > 0 && IsDigit(t[0])) || (|t| > 1 && (t[0] == '+' || t[0] == '-') && IsDigit(t[1]))
  }

  /** The optional sign and the digit run at the start of `t`. */
  function ParseSigned(t: string): (r: Option<int>)
    ensures r.None? <==> !StartsWithNumber(t)
  {
    var signed := |t| > 0 && (t[0] == '+' || t[0] == '-');
    var negative := signed && t[0] == '-';
    var digits := TakeDigits(if signed then t[1..] else t);
    var magnitude: int := DecimalValue(digits);
    if digits == [] then None else Some(if negative then -magnitude else magnitude)
  }

  /** Reading back a rendered natural number gives the number. */
  lemma {:induction false} DecimalRoundTrip(n: nat)
    ensures DecimalValue(NatToString(n)) == n
  {
    if n >= 10 {
      var s := NatToString(n);
      assert s[..|s| - 1] == NatToString(n / 10);
      DecimalRoundTrip(n / 10);
    }
  }

  lemma {:induction false} TakeDigitsOfRendering(ds: string, rest: string)
    requires AllDigits(ds)
    requires rest == [] || !IsDigit(rest[0])
    ensures TakeDigits(ds + rest) == ds
    decreases |ds|
  {
    if ds == [] {
      assert ds + rest == rest;
    } else {
      assert (ds + rest)[1..] == ds[1..] + rest;
      TakeDigitsOfRendering(ds[1..], rest);
    }
  }

  /** `parseInt` inverts `String` on integers, whatever non-digit text
      follows the number: `parseInt("12abc") == 12`, `parseInt("3.5") == 3`. */
  lemma ParseIntRoundTrip(n: int, rest: string)
    requires rest == [] || !IsDigit(rest[0])
    ensures ParseInt(IntToString(n) + rest) == Some(n)
  {
    var m: nat := if n < 0 then -n else n;
    var s := (if n < 0 then ['-'] else []) + (NatToString(m) + rest);
    calc {
      ParseInt(IntToString(n) + rest);
      { RenderingThenRest(n, rest); }
      ParseInt(s);
      { ParseSignedOfRendering(m, rest, n < 0); ParseIntOfTrimmed(s); }
      ParseSigned(s);
      { ParseSignedOfRendering(m, rest, n < 0); }
      Some(n);
    }
  }

  lemma RenderingThenRest(n: int, rest: string)
    ensures var m: nat := if n < 0 then -n else n;
      IntToString(n) + rest == (if n < 0 then ['-'] else []) + (NatToString(m) + rest)
  {
    if n >= 0 {
      assert [] + (NatToString(n) + rest) == NatToString(n) + rest;
    }
  }

  lemma ParseIntOfTrimmed(s: string)
    requires s != [] && (s[0] == '-' || IsDigit(s[0]))
    ensures ParseInt(s) == ParseSigned(s)
  {
    assert !IsWhitespace(s[0]);
  }

  lemma ParseSignedOfRendering(m: nat, rest: string, negative: bool)
    requires rest == [] || !IsDigit(rest[0])
    ensures var t := (if negative then ['-'] else []) + (NatToString(m) + rest);
      t[0] == '-' || IsDigit(t[0])
    ensures ParseSigned((if negative then ['-'] else []) + (NatToString(m) + rest))
         == Some(if negative then -(m as int) else m)
  {
    var ds := NatToString(m);
    DecimalRoundTrip(m);
    TakeDigitsOfRendering(ds, rest);
    var t := (if negative then ['-'] else []) + (ds + rest);
    if negative {
      assert t[1..] == ds + rest;
    } else {
      assert t == ds + rest;
    }
  }

  /** Leading white space never changes what `parseInt` reads. */
  lemma ParseIntSkipsWhitespace(w: string, s: string)
    requires AllWhitespace(w)
    ensures ParseInt(w + s) == ParseInt(s)
  {
    TrimStartSkipsWhitespace(w, s);
  }
}

=== FILE: js_text.dfy ===
/** The JavaScript string primitives the analyzer, the query parser and the
    controller rely on: the white-space class `\s`, `toLowerCase`, `trim`,
    `split(/\s+/)`, `includes`, `reverse` and the UTF-16 `length`.

    A string is a sequence of Unicode scalar values. JavaScript counts UTF-16
    code units instead; the two agree on strings whose characters all lie in
    the Basic Multilingual Plane (`AllSingleUnit`). */
module JsText {

  /** The characters JavaScript's `\s` class matches and `trim` strips:
      tab, line feed, vertical tab, form feed, carriage return, space,
      no-break space, the Unicode space separators, the line and paragraph
      separators and the byte-order mark. */
  predicate IsWhitespace(c: char) {
    var n := c as int;
    (9 <= n <= 13) || n == 0x20 || n == 0xA0 || n == 0x1680 || (0x2000 <= n <= 0x200A)
    || n == 0x2028 || n == 0x2029 || n == 0x202F || n == 0x205F || n == 0x3000 || n == 0xFEFF
  }

  predicate AllWhitespace(s: string) {
    forall i | 0 <= i < |s| :: IsWhitespace(s[i])
  }

  predicate NoWhitespace(w: string) {
    forall i | 0 <= i < |w| :: !IsWhitespace(w[i])
  }

  /** `\d` of a JavaScript regular expression: an ASCII decimal digit. */
  predicate IsDigit(c: char) {
    '0' <= c <= '9'
  }

  predicate AllDigits(s: string) {
    forall i | 0 <= i < |s| :: IsDigit(s[i])
  }

  /** Lower-casing of one character, restricted to the ASCII letters. */
  function LowerChar(c: char): char {
    if 'A' <= c <= 'Z' then (c as int + 32) as char else c
  }

  /** `s.toLowerCase()` for ASCII letters; every other character is kept. */
  function Lower(s: string): (r: string)
    ensures |r| == |s|
  {
    seq(|s|, i requires 0 <= i < |s| => LowerChar(s[i]))
  }

  /** `s.split('').reverse().join('')`. */
  function Reverse(s: string): (r: string)
    ensures |r| == |s|
  {
    seq(|s|, i requires 0 <= i < |s| => s[|s| - 1 - i])
  }

  /** `s.replace(/\s+/g, '')`: every white-space character removed. */
  function RemoveWhitespace(s: string): (r: string)
    ensures |r| <= |s|
  {
    if s == [] then []
    else (if IsWhitespace(s[0]) then [] else [s[0]]) + RemoveWhitespace(s[1..])
  }

  /** The leading white-space run of `s` removed (the first half of `trim`). */
  function TrimStart(s: string): (r: string)
    ensures |r| <= |s| && r == s[|s| - |r|..]
    ensures AllWhitespace(s[..|s| - |r|])
    ensures r == [] || !IsWhitespace(r[0])
  {
    if s != [] && IsWhitespace(s[0]) then TrimStart(s[1..]) else s
  }

  /** The trailing white-space run of `s` removed (the second half of `trim`). */
  function TrimEnd(s: string): (r: string)
    ensures |r| <= |s| && r == s[..|r|]
    ensures AllWhitespace(s[|r|..])
    ensures r == [] || !IsWhitespace(r[|r| - 1])
  {
    if s != [] && IsWhitespace(s[|s| - 1]) then
      var r := TrimEnd(s[..|s| - 1]);
      assert s[|r|..] == s[..|s| - 1][|r|..] + [s[|s| - 1]];
      r
    else s
  }

  /** `s.trim()`. */
  function Trim(s: string): string {
    TrimEnd(TrimStart(s))
  }

  /** The longest prefix of `s` that holds no white space. */
  function TakeWord(s: string): (r: string)
    ensures |r| <= |s| && r == s[..|r|]
    ensures NoWhitespace(r)
    ensures |r| == |s| || IsWhitespace(s[|r|])
  {
    if s == [] || IsWhitespace(s[0]) then [] else [s[0]] + TakeWord(s[1..])
  }

  /** The longest prefix of `s` made of decimal digits (what a greedy `\d+` consumes). */
  function TakeDigits(s: string): (r: string)
    ensures |r| <= |s| && r == s[..|r|]
    ensures AllDigits(r)
    ensures |r| == |s| || !IsDigit(s[|r|])
  {
    if s == [] || !IsDigit(s[0]) then [] else [s[0]] + TakeDigits(s[1..])
  }

  /** `t.split(/\s+/)`: the pieces between maximal white-space runs. A leading
      or trailing run yields an empty first or last piece, as in JavaScript. */
  function SplitOnWhitespace(t: string): (r: seq<string>)
    ensures |r| >= 1
    decreases |t|
  {
    if t == [] then [[]]
    else if IsWhitespace(t[0]) then [[]] + SplitOnWhitespace(TrimStart(t))
    else
      var rest := SplitOnWhitespace(t[1..]);
      [[t[0]] + rest[0]] + rest[1..]
  }

  /** `pieces.filter(p => p.length > 0)`. */
  function NonEmpty(pieces: seq<string>): (r: seq<string>)
    ensures |r| <= |pieces|
    ensures forall i | 0 <= i < |r| :: r[i] != []
  {
    if pieces == [] then []
    else (if pieces[0] == [] then [] else [pieces[0]]) + NonEmpty(pieces[1..])
  }

  /** `s.startsWith(w, i)`. */
  predicate StartsAt(s: string, i: nat, w: string) {
    i + |w| <= |s| && s[i..i + |w|] == w
  }

  /** `s.includes(w)`, scanning from the front. */
  predicate Includes(s: string, w: string)
    decreases |s|
  {
    StartsAt(s, 0, w) || (s != [] && Includes(s[1..], w))
  }

  /** `includes` finds `w` exactly when it occurs at some position. */
  lemma {:induction false} IncludesIffOccurs(s: string, w: string)
    ensures Includes(s, w) <==> exists i | 0 <= i <= |s| :: StartsAt(s, i, w)
    decreases |s|
  {
    if s != [] {
      IncludesIffOccurs(s[1..], w);
      if exists i | 0 <= i <= |s| :: StartsAt(s, i, w) {
        var i :| 0 <= i <= |s| && StartsAt(s, i, w);
        if i > 0 {
          assert s[1..][i - 1..i - 1 + |w|] == s[i..i + |w|];
          assert StartsAt(s[1..], i - 1, w);
        }
      }
      if exists i | 0 <= i <= |s| - 1 :: StartsAt(s[1..], i, w) {
        var i :| 0 <= i <= |s| - 1 && StartsAt(s[1..], i, w);
        assert s[i + 1..i + 1 + |w|] == s[1..][i..i + |w|];
        assert StartsAt(s, i + 1, w);
      }
    }
  }

  /** True when every character is one UTF-16 code unit long. */
  predicate AllSingleUnit(s: string) {
    forall i | 0 <= i < |s| :: s[i] as int < 0x1_0000
  }

  /** `s.length`: the number of UTF-16 code units; a character outside the
      Basic Multilingual Plane takes two. */
  function Utf16Length(s: string): (r: nat)
    ensures |s| <= r <= 2 * |s|
    ensures r == |s| <==> AllSingleUnit(s)
  {
    if s == [] then 0
    else Utf16Length(s[..|s| - 1]) + (if s[|s| - 1] as int < 0x1_0000 then 1 else 2)
  }

  // ---------------------------------------------------------------------
  // Lemmas about the primitives

  lemma LowerIdempotent(s: string)
    ensures Lower(Lower(s)) == Lower(s)
  {
  }

  lemma ReverseInvolution(s: string)
    ensures Reverse(Reverse(s)) == s
  {
  }

  lemma ReverseConcat(a: string, b: string)
    ensures Reverse(a + b) == Reverse(b) + Reverse(a)
  {
  }

  lemma {:induction false} RemoveWhitespaceConcat(a: string, b: string)
    ensures RemoveWhitespace(a + b) == RemoveWhitespace(a) + RemoveWhitespace(b)
    decreases |a|
  {
    if a == [] {
      assert a + b == b;
    } else {
      assert (a + b)[0] == a[0] && (a + b)[1..] == a[1..] + b;
      RemoveWhitespaceConcat(a[1..], b);
    }
  }

  /** Removing white space commutes with reversal, because it is decided
      character by character. */
  lemma {:induction false} RemoveWhitespaceReverse(s: string)
    ensures RemoveWhitespace(Reverse(s)) == Reverse(RemoveWhitespace(s))
    decreases |s|
  {
    if s != [] {
      assert s == [s[0]] + s[1..];
      ReverseConcat([s[0]], s[1..]);
      assert Reverse([s[0]]) == [s[0]];
      RemoveWhitespaceConcat(Reverse(s[1..]), [s[0]]);
      RemoveWhitespaceReverse(s[1..]);
      var head := if IsWhitespace(s[0]) then [] else [s[0]];
      assert RemoveWhitespace([s[0]]) == head;
      ReverseConcat(head, RemoveWhitespace(s[1..]));
      assert Reverse(head) == head;
    }
  }

  lemma {:induction false} TrimStartSkipsWhitespace(w: string, s: string)
    requires AllWhitespace(w)
    ensures TrimStart(w + s) == TrimStart(s)
    decreases |w|
  {
    if w == [] {
      assert w + s == s;
    } else {
      assert (w + s)[1..] == w[1..] + s;
      TrimStartSkipsWhitespace(w[1..], s);
    }
  }
}

=== FILE: natural_language_parser.dfy ===
/** The natural-language filter parser: a fixed, ordered list of lexical
    rules turns a free-text phrase into an optional-field filter record.
    Matching is case-insensitive (the phrase is lower-cased first), and a
    later rule overwrites a field an earlier rule set. */
module NaturalLanguageParser {
  import opened Wrappers
  import opened JsText
  import opened JsNumber

  /** `ParsedFilters`: every field is optional; an absent field constrains nothing. */
  datatype ParsedFilters = ParsedFilters(
    isPalindrome: Option<bool>,
    minLength: Option<int>,
    maxLength: Option<int>,
    wordCount: Option<int>,
    containsCharacter: Option<char>)

  const NoFilters := ParsedFilters(None, None, None, None, None)

  // ---------------------------------------------------------------------
  // Leftmost regular-expression matching

  /** No position in `from..i` matches. */
  ghost predicate NoMatchBefore<T>(at: nat -> Option<T>, from: nat, i: nat) {
    forall j: nat | from <= j < i :: at(j).None?
  }

  /** `String.prototype.match` without the `g` flag: the capture of the
      leftmost position in `from..end` at which the pattern matches. */
  function FirstMatch<T>(at: nat -> Option<T>, from: nat, end: nat): Option<T>
    decreases end - from
  {
    if from >= end then None
    else if at(from).Some? then at(from)
    else FirstMatch(at, from + 1, end)
  }

  /** What `FirstMatch` reports is the capture at a matching position with no
      match before it; it reports nothing exactly when no position matches. */
  lemma {:induction false} FirstMatchIsLeftmost<T>(at: nat -> Option<T>, from: nat, end: nat)
    ensures var r := FirstMatch(at, from, end);
      && (r.Some? ==> exists i: nat | from <= i < end :: at(i) == r && NoMatchBefore(at, from, i))
      && (r.None? <==> NoMatchBefore(at, from, end))
    decreases end - from
  {
    if from < end && at(from).None? {
      FirstMatchIsLeftmost(at, from + 1, end);
      var r := FirstMatch(at, from, end);
      if r.Some? {
        var i: nat :| from + 1 <= i < end && at(i) == r && NoMatchBefore(at, from + 1, i);
        assert NoMatchBefore(at, from, i);
      }
    }
  }

  /** A match at `k` with none before it is the match reported. */
  lemma {:induction false} FirstMatchAt<T>(at: nat -> Option<T>, from: nat, k: nat, end: nat)
    requires from <= k < end && at(k).Some?
    requires NoMatchBefore(at, from, k)
    ensures FirstMatch(at, from, end) == at(k)
    decreases k - from
  {
    if from < k {
      FirstMatchAt(at, from + 1, k, end);
    }
  }

  /** `keyword` at `i` followed by `(\d+)`: the value of the digit run and
      the index just after it. The run is the longest one, since `\d+` is
      greedy and what every pattern expects next is not a digit. */
  function KeywordNumberAt(q: string, i: nat, keyword: string): (r: Option<(nat, nat)>)
    ensures r.Some? ==> i + |keyword| < r.value.1 <= |q|
  {
    if !StartsAt(q, i, keyword) then None
    else
      var digits := TakeDigits(q[i + |keyword|..]);
      if digits == [] then None else Some((DecimalValue(digits), i + |keyword| + |digits|))
  }

  /** The matcher fires exactly when `keyword` is followed by a digit, and
      then reads the longest digit run there as a decimal number. */
  lemma KeywordNumberAtMeans(q: string, i: nat, keyword: string)
    ensures KeywordNumberAt(q, i, keyword).Some?
        <==> StartsAt(q, i, keyword) && i + |keyword| < |q| && IsDigit(q[i + |keyword|])
    ensures var r := KeywordNumberAt(q, i, keyword);
      r.Some? ==>
        var (n, e) := r.value;
        && AllDigits(q[i + |keyword|..e])
        && (e == |q| || !IsDigit(q[e]))
        && n == DecimalValue(q[i + |keyword|..e])
  {
    if StartsAt(q, i, keyword) {
      var k := i + |keyword|;
      var digits := TakeDigits(q[k..]);
      if digits != [] {
        assert digits[0] == q[k];
        assert digits == q[k..k + |digits|];
      }
    }
  }

  /** `/(\d+)\s+words?/` at position `i`. */
  function WordCountAt(q: string, i: nat): Option<nat> {
    match KeywordNumberAt(q, i, "")
    case None => None
    case Some((n, e)) =>
      if e < |q| && IsWhitespace(q[e]) && StartsAt(TrimStart(q[e..]), 0, "word") then Some(n) else None
  }

  /** `/longer than (\d+)/` at position `i`. */
  function LongerThanAt(q: string, i: nat): Option<nat> {
    match KeywordNumberAt(q, i, "longer than ")
    case None => None
    case Some((n, _)) => Some(n)
  }

  /** `/shorter than (\d+)/` at position `i`. */
  function ShorterThanAt(q: string, i: nat): Option<nat> {
    match KeywordNumberAt(q, i, "shorter than ")
    case None => None
    case Some((n, _)) => Some(n)
  }

  /** `/at least (\d+) characters?/` at position `i`. */
  function AtLeastAt(q: string, i: nat): Option<nat> {
    match KeywordNumberAt(q, i, "at least ")
    case None => None
    case Some((n, e)) => if StartsAt(q, e, " character") then Some(n) else None
  }

  /** `/at most (\d+) characters?/` at position `i`. */
  function AtMostAt(q: string, i: nat): Option<nat> {
    match KeywordNumberAt(q, i, "at most ")
    case None => None
    case Some((n, e)) => if StartsAt(q, e, " character") then Some(n) else None
  }

  /** `/contains? (?:the )?letter ([a-z])/` at position `i`. The optional
      parts never need backtracking: after "contain" comes either 's' or the
      space, and after the space either "the " or "letter ". */
  function LetterAt(q: string, i: nat): (r: Option<char>)
    ensures r.Some? ==> StartsAt(q, i, "contain") && 'a' <= r.value <= 'z'
  {
    if !StartsAt(q, i, "contain") then None
    else
      var afterVerb := if i + 7 < |q| && q[i + 7] == 's' then i + 8 else i + 7;
      if !StartsAt(q, afterVerb, " ") then None
      else
        var afterArticle := if StartsAt(q, afterVerb + 1, "the ") then afterVerb + 5 else afterVerb + 1;
        if StartsAt(q, afterArticle, "letter ") && afterArticle + 7 < |q| && 'a' <= q[afterArticle + 7] <= 'z'
        then Some(q[afterArticle + 7])
        else None
  }

  function WordCountMatch(q: string): Option<nat> {
    FirstMatch((i: nat) => WordCountAt(q, i), 0, |q| + 1)
  }

  function LongerThanMatch(q: string): Option<nat> {
    FirstMatch((i: nat) => LongerThanAt(q, i), 0, |q| + 1)
  }

  function ShorterThanMatch(q: string): Option<nat> {
    FirstMatch((i: nat) => ShorterThanAt(q, i), 0, |q| + 1)
  }

  function AtLeastMatch(q: string): Option<nat> {
    FirstMatch((i: nat) => AtLeastAt(q, i), 0, |q| + 1)
  }

  function AtMostMatch(q: string): Option<nat> {
    FirstMatch((i: nat) => AtMostAt(q, i), 0, |q| + 1)
  }

  function LetterMatch(q: string): (r: Option<char>)
    ensures r.Some? ==> 'a' <= r.value <= 'z'
  {
    FirstMatchIsLeftmost((i: nat) => LetterAt(q, i), 0, |q| + 1);
    FirstMatch((i: nat) => LetterAt(q, i), 0, |q| + 1)
  }

  // ---------------------------------------------------------------------
  // The parser

  /** `parseNaturalLanguageQuery(query)`: the rules read the lower-cased
      phrase `q`. Each field is decided by the last rule that fires on it;
      a field no rule fires on stays absent. */
  function ParseNaturalLanguageQuery(query: string): (f: ParsedFilters)
    ensures f == LastRuleFields(Lower(query))
    ensures f.isPalindrome != Some(false)
    ensures f.minLength.Some? ==> f.minLength.value >= 0
    ensures f.maxLength.Some? ==> f.maxLength.value >= -1
    ensures f.wordCount.Some? ==> f.wordCount.value >= 0
    ensures f.containsCharacter.Some? ==> 'a' <= f.containsCharacter.value <= 'z'
  {
    RulesDecideFields(Lower(query));
    ApplyRules(Lower(query))
  }

  /** The nine rules in their fixed order over the lower-cased phrase `q`;
      a rule that fires sets its field, overwriting an earlier value. */
  function ApplyRules(q: string): ParsedFilters {
    var f1 := PalindromeRule(q, NoFilters);
    var f2 := SingleWordRule(q, f1);
    var f3 := WordCountRule(q, f2);
    var f4 := LongerThanRule(q, f3);
    var f5 := ShorterThanRule(q, f4);
    var f6 := AtLeastRule(q, f5);
    var f7 := AtMostRule(q, f6);
    var f8 := ContainsLetterRule(q, f7);
    FirstVowelRule(q, f8)
  }

  /** Each field on its own: the value of the last rule that fires on it. */
  function LastRuleFields(q: string): ParsedFilters {
    ParsedFilters(
      if Includes(q, "palindrome") || Includes(q, "palindromic") then Some(true) else None,
      if AtLeastMatch(q).Some? then Some(AtLeastMatch(q).value as int)
      else if LongerThanMatch(q).Some? then Some(LongerThanMatch(q).value + 1) else None,
      if AtMostMatch(q).Some? then Some(AtMostMatch(q).value as int)
      else if ShorterThanMatch(q).Some? then Some(ShorterThanMatch(q).value - 1) else None,
      if WordCountMatch(q).Some? then Some(WordCountMatch(q).value as int)
      else if Includes(q, "single word") then Some(1) else None,
      if Includes(q, "first vowel") then Some('a') else LetterMatch(q))
  }

  /** Applying the rules in order leaves each field with the value of the
      last rule that fired on it: the rules touching different fields do
      not interfere. */
  lemma RulesDecideFields(q: string)
    ensures ApplyRules(q) == LastRuleFields(q)
  {
    var e := LastRuleFields(q);
    var f2 := SingleWordRule(q, PalindromeRule(q, NoFilters));
    assert f2.isPalindrome == e.isPalindrome && f2.minLength == None && f2.maxLength == None;
    assert f2.containsCharacter == None;
    var f3 := WordCountRule(q, f2);
    assert f3 == f2.(wordCount := e.wordCount);
    var f5 := ShorterThanRule(q, LongerThanRule(q, f3));
    var f7 := AtMostRule(q, AtLeastRule(q, f5));
    assert f7 == f3.(minLength := e.minLength, maxLength := e.maxLength);
    var f9 := FirstVowelRule(q, ContainsLetterRule(q, f7));
    assert f9 == f7.(containsCharacter := e.containsCharacter);
  }

  // The rules, in the order they are applied.

  function PalindromeRule(q: string, f: ParsedFilters): ParsedFilters {
    if Includes(q, "palindrome") || Includes(q, "palindromic") then f.(isPalindrome := Some(true)) else f
  }

  function SingleWordRule(q: string, f: ParsedFilters): ParsedFilters {
    if Includes(q, "single word") then f.(wordCount := Some(1)) else f
  }

  function WordCountRule(q: string, f: ParsedFilters): ParsedFilters {
    match WordCountMatch(q)
    case Some(n) => f.(wordCount := Some(n))
    case None => f
  }

  function LongerThanRule(q: string, f: ParsedFilters): ParsedFilters {
    match LongerThanMatch(q)
    case Some(n) => f.(minLength := Some(n + 1))
    case None => f
  }

  function ShorterThanRule(q: string, f: ParsedFilters): ParsedFilters {
    match ShorterThanMatch(q)
    case Some(n) => f.(maxLength := Some(n - 1))
    case None => f
  }

  function AtLeastRule(q: string, f: ParsedFilters): ParsedFilters {
    match AtLeastMatch(q)
    case Some(n) => f.(minLength := Some(n))
    case None => f
  }

  function AtMostRule(q: string, f: ParsedFilters): ParsedFilters {
    match AtMostMatch(q)
    case Some(n) => f.(maxLength := Some(n))
    case None => f
  }

  function ContainsLetterRule(q: string, f: ParsedFilters): ParsedFilters {
    match LetterMatch(q)
    case Some(c) => f.(containsCharacter := Some(c))
    case None => f
  }

  function FirstVowelRule(q: string, f: ParsedFilters): ParsedFilters {
    if Includes(q, "first vowel") then f.(containsCharacter := Some('a')) else f
  }

  /** Matching ignores letter case: a phrase and its lower-cased form parse alike. */
  lemma ParseIgnoresCase(query: string)
    ensures ParseNaturalLanguageQuery(Lower(query)) == ParseNaturalLanguageQuery(query)
  {
    LowerIdempotent(query);
  }

  // ---------------------------------------------------------------------
  // What the rules read

  /** `keyword` followed by a rendered number and a non-digit reads back as
      that number, ending just after its last digit. */
  lemma KeywordNumberReads(pre: string, keyword: string, n: nat, rest: string)
    requires rest == [] || !IsDigit(rest[0])
    ensures KeywordNumberAt(pre + keyword + NatToString(n) + rest, |pre|, keyword)
         == Some((n, |pre| + |keyword| + |NatToString(n)|))
  {
    var digits := NatToString(n);
    var q := pre + keyword + digits + rest;
    assert q == (pre + keyword) + (digits + rest);
    assert q[|pre|..|pre| + |keyword|] == keyword;
    assert q[|pre| + |keyword|..] == digits + rest;
    TakeDigitsOfRendering(digits, rest);
    DecimalRoundTrip(n);
  }

  /** A phrase opening with "longer than N" sets the lower bound from N. */
  lemma LongerThanReads(n: nat, rest: string)
    requires rest == [] || !IsDigit(rest[0])
    ensures LongerThanMatch("longer than " + NatToString(n) + rest) == Some(n)
  {
    var q := "longer than " + NatToString(n) + rest;
    KeywordNumberReads([], "longer than ", n, rest);
    assert [] + "longer than " == "longer than ";
    FirstMatchAt((i: nat) => LongerThanAt(q, i), 0, 0, |q| + 1);
  }

  /** A phrase opening with "shorter than N" sets the upper bound from N. */
  lemma ShorterThanReads(n: nat, rest: string)
    requires rest == [] || !IsDigit(rest[0])
    ensures ShorterThanMatch("shorter than " + NatToString(n) + rest) == Some(n)
  {
    var q := "shorter than " + NatToString(n) + rest;
    KeywordNumberReads([], "shorter than ", n, rest);
    assert [] + "shorter than " == "shorter than ";
    FirstMatchAt((i: nat) => ShorterThanAt(q, i), 0, 0, |q| + 1);
  }

  /** "at least N character" reads back as N wherever it stands. */
  lemma AtLeastReads(pre: string, n: nat, rest: string)
    ensures AtLeastAt(pre + "at least " + NatToString(n) + " character" + rest, |pre|) == Some(n)
  {
    var head := pre + "at least " + NatToString(n);
    var q := head + (" character" + rest);
    assert q == pre + "at least " + NatToString(n) + " character" + rest;
    KeywordNumberReads(pre, "at least ", n, " character" + rest);
    assert q[|head|..|head| + 10] == " character";
  }

  /** "at most N character" reads back as N wherever it stands. */
  lemma AtMostReads(pre: string, n: nat, rest: string)
    ensures AtMostAt(pre + "at most " + NatToString(n) + " character" + rest, |pre|) == Some(n)
  {
    var head := pre + "at most " + NatToString(n);
    var q := head + (" character" + rest);
    assert q == pre + "at most " + NatToString(n) + " character" + rest;
    KeywordNumberReads(pre, "at most ", n, " character" + rest);
    assert q[|head|..|head| + 10] == " character";
  }

  /** "N word", with any white space between, reads back as N wherever it
      stands. */
  lemma WordCountReads(pre: string, n: nat, space: string, tail: string)
    requires space != [] && AllWhitespace(space)
    requires StartsAt(tail, 0, "word")
    ensures WordCountAt(pre + NatToString(n) + (space + tail), |pre|) == Some(n)
  {
    var head := pre + NatToString(n);
    var q := head + (space + tail);
    NumberReads(pre, n, space + tail);
    assert q[|head|..] == space + tail;
    WordFollowsNumber(q, |pre|, n, |head|, space, tail);
  }

  /** After the number, white space and then "word". */
  lemma WordFollowsNumber(q: string, i: nat, n: nat, e: nat, space: string, tail: string)
    requires KeywordNumberAt(q, i, "") == Some((n, e))
    requires space != [] && AllWhitespace(space) && q[e..] == space + tail
    requires StartsAt(tail, 0, "word")
    ensures WordCountAt(q, i) == Some(n)
  {
    assert q[e] == space[0];
    TrimStartBefore(space, tail);
  }

  /** A rendered number followed by a non-digit reads back as that number. */
  lemma NumberReads(pre: string, n: nat, rest: string)
    requires rest == [] || !IsDigit(rest[0])
    ensures KeywordNumberAt(pre + NatToString(n) + rest, |pre|, "") == Some((n, |pre| + |NatToString(n)|))
  {
    KeywordNumberReads(pre, "", n, rest);
    assert pre + "" == pre;
  }

  /** Trimming skips exactly the white space before a non-white-space character. */
  lemma TrimStartBefore(space: string, word: string)
    requires AllWhitespace(space) && word != [] && !IsWhitespace(word[0])
    ensures TrimStart(space + word) == word
  {
    TrimStartSkipsWhitespace(space, word);
  }

  /** "contain(s) (the) letter x" reads back as x wherever it stands, with
      or without the 's' and the article. */
  lemma LetterReads(pre: string, verb: string, article: string, c: char, rest: string)
    requires verb == "contain" || verb == "contains"
    requires article == [] || article == "the "
    requires 'a' <= c <= 'z'
    ensures LetterAt(pre + verb + " " + article + "letter " + [c] + rest, |pre|) == Some(c)
  {
    var p := verb + " " + article + "letter " + [c] + rest;
    assert pre + verb + " " + article + "letter " + [c] + rest == pre + p;
    LetterReadsAtStart(verb, article, c, rest);
    LetterAtShift(pre, p);
  }

  lemma LetterReadsAtStart(verb: string, article: string, c: char, rest: string)
    requires verb == "contain" || verb == "contains"
    requires article == [] || article == "the "
    requires 'a' <= c <= 'z'
    ensures LetterAt(verb + " " + article + "letter " + [c] + rest, 0) == Some(c)
  {
    var head := verb + " " + article + "letter ";
    assert verb + " " + article + "letter " + [c] + rest == head + ([c] + rest);
    if verb == "contain" {
      if article == [] {
        assert head == "contain letter ";
        ContainLetter(c, rest);
      } else {
        assert head == "contain the letter ";
        ContainTheLetter(c, rest);
      }
    } else {
      if article == [] {
        assert head == "contains letter ";
        ContainsLetter(c, rest);
      } else {
        assert head == "contains the letter ";
        ContainsTheLetter(c, rest);
      }
    }
  }

  // The four spellings of the letter pattern's head, each followed by the letter.

  lemma ContainLetter(c: char, rest: string)
    requires 'a' <= c <= 'z'
    ensures LetterAt("contain letter " + ([c] + rest), 0) == Some(c)
  {
    var q := "contain letter " + ([c] + rest);
    assert StartsAt(q, 0, "contain") by { assert q[..7] == "contain"; }
    assert StartsAt(q, 7, " ") by { assert q[7..8] == " "; }
    assert q[8] == 'l';
    assert StartsAt(q, 8, "letter ") by { assert q[8..15] == "letter "; }
    assert q[15] == c;
    LetterFound(q, 0, 7, 8);
  }

  lemma ContainTheLetter(c: char, rest: string)
    requires 'a' <= c <= 'z'
    ensures LetterAt("contain the letter " + ([c] + rest), 0) == Some(c)
  {
    var q := "contain the letter " + ([c] + rest);
    assert StartsAt(q, 0, "contain") by { assert q[..7] == "contain"; }
    assert StartsAt(q, 7, " ") by { assert q[7..8] == " "; }
    assert StartsAt(q, 8, "the ") by {
      assert q[8] == 't' && q[9] == 'h' && q[10] == 'e' && q[11] == ' ';
      assert q[8..12] == "the ";
    }
    assert StartsAt(q, 12, "letter ") by { assert q[12..19] == "letter "; }
    assert q[19] == c;
    LetterFound(q, 0, 7, 12);
  }

  lemma ContainsLetter(c: char, rest: string)
    requires 'a' <= c <= 'z'
    ensures LetterAt("contains letter " + ([c] + rest), 0) == Some(c)
  {
    var q := "contains letter " + ([c] + rest);
    assert StartsAt(q, 0, "contain") by { assert q[..7] == "contain"; }
    assert q[7] == 's';
    assert StartsAt(q, 8, " ") by { assert q[8..9] == " "; }
    assert q[9] == 'l';
    assert StartsAt(q, 9, "letter ") by { assert q[9..16] == "letter "; }
    assert q[16] == c;
    LetterFound(q, 0, 8, 9);
  }

  lemma ContainsTheLetter(c: char, rest: string)
    requires 'a' <= c <= 'z'
    ensures LetterAt("contains the letter " + ([c] + rest), 0) == Some(c)
  {
    var q := "contains the letter " + ([c] + rest);
    assert StartsAt(q, 0, "contain") by { assert q[..7] == "contain"; }
    assert q[7] == 's';
    assert StartsAt(q, 8, " ") by { assert q[8..9] == " "; }
    assert StartsAt(q, 9, "the ") by {
      assert q[9] == 't' && q[10] == 'h' && q[11] == 'e' && q[12] == ' ';
      assert q[9..13] == "the ";
    }
    assert StartsAt(q, 13, "letter ") by { assert q[13..20] == "letter "; }
    assert q[20] == c;
    LetterFound(q, 0, 8, 13);
  }

  /** The steps of the letter pattern, taken one at a time. */
  lemma LetterFound(q: string, i: nat, afterVerb: nat, afterArticle: nat)
    requires StartsAt(q, i, "contain")
    requires afterVerb == (if i + 7 < |q| && q[i + 7] == 's' then i + 8 else i + 7)
    requires StartsAt(q, afterVerb, " ")
    requires afterArticle == (if StartsAt(q, afterVerb + 1, "the ") then afterVerb + 5 else afterVerb + 1)
    requires StartsAt(q, afterArticle, "letter ") && afterArticle + 7 < |q| && 'a' <= q[afterArticle + 7] <= 'z'
    ensures LetterAt(q, i) == Some(q[afterArticle + 7])
  {
  }

  /** Text before a position does not change what starts there. */
  lemma StartsAtShift(pre: string, p: string, k: nat, w: string)
    ensures StartsAt(pre + p, |pre| + k, w) == StartsAt(p, k, w)
  {
    if k + |w| <= |p| {
      assert (pre + p)[|pre| + k..|pre| + k + |w|] == p[k..k + |w|];
    }
  }

  /** The letter pattern reads the same wherever the phrase stands. */
  lemma LetterAtShift(pre: string, p: string)
    ensures LetterAt(pre + p, |pre|) == LetterAt(p, 0)
  {
    var q := pre + p;
    var i := |pre|;
    StartsAtShift(pre, p, 0, "contain");
    if StartsAt(p, 0, "contain") {
      if 7 < |p| {
        assert q[i + 7] == p[7];
      }
      var afterVerb: nat := if 7 < |p| && p[7] == 's' then 8 else 7;
      StartsAtShift(pre, p, afterVerb, " ");
      StartsAtShift(pre, p, afterVerb + 1, "the ");
      var afterArticle: nat := if StartsAt(p, afterVerb + 1, "the ") then afterVerb + 5 else afterVerb + 1;
      StartsAtShift(pre, p, afterArticle, "letter ");
      if afterArticle + 7 < |p| {
        assert q[i + afterArticle + 7] == p[afterArticle + 7];
      }
    }
  }

  /** A keyword the phrase lacks cannot occur in it. */
  lemma MissingCharacterExcludes(q: string, w: string, c: char)
    requires c in w && c !in q
    ensures !Includes(q, w)
  {
    IncludesIffOccurs(q, w);
  }

  /** A pattern that can only match where `w` starts is found only in a
      phrase that includes `w`. */
  lemma MatchNeedsKeyword<T>(q: string, at: nat -> Option<T>, w: string)
    requires forall i: nat :: at(i).Some? ==> StartsAt(q, i, w)
    ensures FirstMatch(at, 0, |q| + 1).Some? ==> Includes(q, w)
  {
    FirstMatchIsLeftmost(at, 0, |q| + 1);
    IncludesIffOccurs(q, w);
  }

  /** Each rule fires only when its keyword occurs in the phrase. */
  lemma RulesNeedKeywords(q: string)
    ensures LongerThanMatch(q).Some? ==> Includes(q, "longer than ")
    ensures ShorterThanMatch(q).Some? ==> Includes(q, "shorter than ")
    ensures AtLeastMatch(q).Some? ==> Includes(q, "at least ")
    ensures AtMostMatch(q).Some? ==> Includes(q, "at most ")
    ensures LetterMatch(q).Some? ==> Includes(q, "contain")
    ensures WordCountMatch(q).Some? ==> Includes(q, "word")
  {
    MatchNeedsKeyword(q, (i: nat) => LongerThanAt(q, i), "longer than ");
    MatchNeedsKeyword(q, (i: nat) => ShorterThanAt(q, i), "shorter than ");
    MatchNeedsKeyword(q, (i: nat) => AtLeastAt(q, i), "at least ");
    MatchNeedsKeyword(q, (i: nat) => AtMostAt(q, i), "at most ");
    MatchNeedsKeyword(q, (i: nat) => LetterAt(q, i), "contain");
    WordCountNeedsWord(q);
  }

  /** The word-count pattern ends in "word", so it matches only where "word" occurs. */
  lemma WordCountNeedsWord(q: string)
    ensures WordCountMatch(q).Some? ==> Includes(q, "word")
  {
    FirstMatchIsLeftmost((i: nat) => WordCountAt(q, i), 0, |q| + 1);
    IncludesIffOccurs(q, "word");
    if WordCountMatch(q).Some? {
      var i: nat :| 0 <= i < |q| + 1 && WordCountAt(q, i).Some?;
      var e := KeywordNumberAt(q, i, "").value.1;
      WordAfterNumber(q, e);
    }
  }

  lemma WordAfterNumber(q: string, e: nat)
    requires e <= |q| && StartsAt(TrimStart(q[e..]), 0, "word")
    ensures exists j | 0 <= j <= |q| :: StartsAt(q, j, "word")
  {
    var t := TrimStart(q[e..]);
    var j := e + (|q[e..]| - |t|);
    assert q[j..j + 4] == t[..4];
    assert StartsAt(q, j, "word");
  }

  /** The leftmost "longer than" of the example phrase. */
  lemma LongerThanOfExample()
    ensures LongerThanMatch("palindrome longer than 5") == Some(5)
  {
    var q := "palindrome longer than 5";
    assert q == "palindrome " + "longer than " + NatToString(5) + [];
    KeywordNumberReads("palindrome ", "longer than ", 5, []);
    forall j: nat | j < 11 ensures !StartsAt(q, j, "longer than ") {
      assert q[j..j + 12][0] == q[j] && q[j..j + 12][1] == q[j + 1];
      assert q[j] != 'l' || q[j + 1] != 'o';
    }
    FirstMatchAt((i: nat) => LongerThanAt(q, i), 0, 11, |q| + 1);
  }

  /** "Palindrome longer than 5": the palindrome flag and a lower bound of 6. */
  lemma ParseExampleLongerPalindrome()
    ensures ParseNaturalLanguageQuery("Palindrome longer than 5")
         == ParsedFilters(Some(true), Some(6), None, None, None)
  {
    LowerOfExample();
    RulesOfExample();
    RulesDecideFields("palindrome longer than 5");
  }

  lemma LowerOfExample()
    ensures Lower("Palindrome longer than 5") == "palindrome longer than 5"
  {
  }

  lemma RulesOfExample()
    ensures LastRuleFields("palindrome longer than 5") == ParsedFilters(Some(true), Some(6), None, None, None)
  {
    var q := "palindrome longer than 5";
    assert StartsAt(q, 0, "palindrome");
    LongerThanOfExample();
    LettersOutsideExample();
    MissingCharacterExcludes(q, "shorter than ", 's');
    MissingCharacterExcludes(q, "at least ", 's');
    MissingCharacterExcludes(q, "at most ", 's');
    MissingCharacterExcludes(q, "contain", 'c');
    MissingCharacterExcludes(q, "word", 'w');
    MissingCharacterExcludes(q, "single word", 'w');
    MissingCharacterExcludes(q, "first vowel", 'w');
    OnlyLongerThanFires(q, 5);
  }

  lemma LettersOutsideExample()
    ensures var q := "palindrome longer than 5"; 'c' !in q && 'w' !in q && 's' !in q
  {
  }

  /** A phrase that names palindromes and only "longer than N" among the
      other rules yields the palindrome flag and a lower bound of N + 1. */
  lemma OnlyLongerThanFires(q: string, n: nat)
    requires Includes(q, "palindrome") && LongerThanMatch(q) == Some(n)
    requires !Includes(q, "shorter than ") && !Includes(q, "at least ") && !Includes(q, "at most ")
    requires !Includes(q, "contain") && !Includes(q, "word") && !Includes(q, "single word")
    requires !Includes(q, "first vowel")
    ensures LastRuleFields(q) == ParsedFilters(Some(true), Some(n + 1), None, None, None)
  {
    RulesNeedKeywords(q);
  }

  /** "exactly 3 words": a word count of 3 and nothing else. */
  lemma ParseExampleWordCount()
    ensures ParseNaturalLanguageQuery("exactly 3 words") == ParsedFilters(None, None, None, Some(3), None)
  {
    assert Lower("exactly 3 words") == "exactly 3 words";
    RulesOfWordCountExample();
  }

  lemma RulesOfWordCountExample()
    ensures LastRuleFields("exactly 3 words") == ParsedFilters(None, None, None, Some(3), None)
  {
    var q := "exactly 3 words";
    assert forall j | 0 <= j < |q| :: q[j] != 'p' && q[j] != 'h' && q[j] != 'm' && q[j] != 'i' && q[j] != 'f';
    WordCountOfExample();
    NoAtLeastInExample();
    MissingCharacterExcludes(q, "palindrome", 'p');
    MissingCharacterExcludes(q, "palindromic", 'p');
    MissingCharacterExcludes(q, "longer than ", 'h');
    MissingCharacterExcludes(q, "shorter than ", 'h');
    MissingCharacterExcludes(q, "at most ", 'm');
    MissingCharacterExcludes(q, "contain", 'i');
    MissingCharacterExcludes(q, "first vowel", 'f');
    OnlyWordCountFires(q, 3);
  }

  /** "at" never occurs in the example phrase. */
  lemma NoAtLeastInExample()
    ensures !Includes("exactly 3 words", "at least ")
  {
    var q := "exactly 3 words";
    assert forall j | 0 <= j < |q| - 1 :: q[j] != 'a' || q[j + 1] != 't';
    PairExcludes(q, "at least ");
  }

  /** A word whose first two characters never stand side by side in `q`
      does not occur in it. */
  lemma PairExcludes(q: string, w: string)
    requires |w| >= 2 && forall j | 0 <= j < |q| - 1 :: q[j] != w[0] || q[j + 1] != w[1]
    ensures !Includes(q, w)
  {
    IncludesIffOccurs(q, w);
    forall j | 0 <= j <= |q| ensures !StartsAt(q, j, w) {
      if j + |w| <= |q| {
        assert q[j..j + |w|][0] == q[j] && q[j..j + |w|][1] == q[j + 1];
      }
    }
  }

  /** The leftmost number followed by "word" in the example phrase. */
  lemma WordCountOfExample()
    ensures WordCountMatch("exactly 3 words") == Some(3)
  {
    var q := "exactly 3 words";
    NoNumberBefore(q, 8);
    assert NatToString(3) == "3";
    assert q == "exactly " + NatToString(3) + (" " + "words");
    assert StartsAt("words", 0, "word");
    WordCountReads("exactly ", 3, " ", "words");
    FirstMatchAt((i: nat) => WordCountAt(q, i), 0, 8, |q| + 1);
  }

  /** The word-count pattern starts with a digit. */
  lemma NoNumberBefore(q: string, k: nat)
    requires k <= |q| && forall j | 0 <= j < k :: !IsDigit(q[j])
    ensures NoMatchBefore((i: nat) => WordCountAt(q, i), 0, k)
  {
    forall j: nat | j < k ensures WordCountAt(q, j).None? {
      assert q[j..][0] == q[j];
    }
  }

  /** A phrase where only the word-count rule fires yields that count alone. */
  lemma OnlyWordCountFires(q: string, n: nat)
    requires WordCountMatch(q) == Some(n)
    requires !Includes(q, "palindrome") && !Includes(q, "palindromic")
    requires !Includes(q, "longer than ") && !Includes(q, "shorter than ")
    requires !Includes(q, "at least ") && !Includes(q, "at most ")
    requires !Includes(q, "contain") && !Includes(q, "first vowel")
    ensures LastRuleFields(q) == ParsedFilters(None, None, None, Some(n), None)
  {
    RulesNeedKeywords(q);
  }
}

=== FILE: string_analysis.dfy ===
/** The stored record of one analysed string and the collection that holds
    them. The collection is a map keyed by the value: the value is unique
    and required, so at most one record exists per value. */
module StringAnalysis {
  import opened StringAnalyzer

  /** A stored analysis: its id is the SHA-256 digest of the value. */
  datatype StringRecord = StringRecord(id: string, value: string, properties: StringProperties)

  /** The collection, keyed by `value`. */
  type Store = map<string, StringRecord>

  /** A record is what creating its value stores: keyed by its value, which
      is non-empty, with the value's digest as id and its analysis as
      properties. */
  predicate WellFormedRecord(key: string, r: StringRecord, hash: string -> string) {
    && r.value == key
    && key != []
    && r.id == hash(key)
    && r.properties == AnalyzeString(key, hash)
  }

  /** The collection invariant: every record is well formed, and no two
      records share an id (`value` is unique because it is the key). */
  predicate ValidStore(store: Store, hash: string -> string) {
    && (forall v | v in store :: WellFormedRecord(v, store[v], hash))
    && (forall v, w | v in store && w in store && v != w :: store[v].id != store[w].id)
  }
}

=== FILE: string_analyzer.dfy ===
/** The string analyzer: a total, deterministic map from a string to the
    bundle of properties stored with it (length, palindrome flag, number of
    distinct characters, word count, fingerprint and character frequencies).

    The SHA-256 digest is a foreign call; it enters as the parameter `hash`. */
module StringAnalyzer {
  import opened JsText

  /** The property bundle of one analyzed string. */
  datatype StringProperties = StringProperties(
    length: nat,
    isPalindrome: bool,
    uniqueCharacters: nat,
    wordCount: nat,
    sha256Hash: string,
    characterFrequencyMap: map<char, nat>)

  // ---------------------------------------------------------------------
  // Palindrome

  /** The palindrome check's view of a string: lower-cased, white space removed. */
  function Normalize(value: string): string {
    RemoveWhitespace(Lower(value))
  }

  /** The normalized string equals its own reversal. */
  predicate IsPalindrome(value: string) {
    var normalized := Normalize(value);
    normalized == Reverse(normalized)
  }

  /** Reading the normalized string from both ends meets the same characters. */
  lemma PalindromeMirror(value: string)
    ensures IsPalindrome(value) <==>
      var n := Normalize(value);
      forall i | 0 <= i < |n| :: n[i] == n[|n| - 1 - i]
  {
    var n := Normalize(value);
    if forall i | 0 <= i < |n| :: n[i] == n[|n| - 1 - i] {
      assert n == Reverse(n);
    }
  }

  lemma LowerReverse(s: string)
    ensures Lower(Reverse(s)) == Reverse(Lower(s))
  {
  }

  /** Normalization is decided character by character, so it commutes with
      reversal and a string is a palindrome exactly when its reversal is. */
  lemma PalindromeOfReverse(value: string)
    ensures IsPalindrome(Reverse(value)) == IsPalindrome(value)
  {
    var n := Normalize(value);
    LowerReverse(value);
    RemoveWhitespaceReverse(Lower(value));
    assert Normalize(Reverse(value)) == Reverse(n);
    ReverseInvolution(n);
    if Reverse(n) == Reverse(Reverse(n)) {
      ReverseInvolution(Reverse(n));
      assert n == Reverse(Reverse(n));
    }
  }

  /** Letter case never matters to the palindrome check. */
  lemma PalindromeIgnoresCase(value: string)
    ensures IsPalindrome(Lower(value)) == IsPalindrome(value)
  {
    LowerIdempotent(value);
  }

  lemma {:induction false} RemoveWhitespaceKeepsWords(w: string)
    requires NoWhitespace(w)
    ensures RemoveWhitespace(w) == w
  {
    if w != [] {
      RemoveWhitespaceKeepsWords(w[1..]);
    }
  }

  /** A white-space-free word that reads the same backwards, in lower
      case, is a palindrome. */
  lemma LowercaseWordPalindrome(w: string)
    requires NoWhitespace(w) && Lower(w) == w && Reverse(w) == w
    ensures IsPalindrome(w)
  {
    RemoveWhitespaceKeepsWords(w);
  }

  /** Letter case is ignored: "Racecar" is a palindrome. */
  lemma PalindromeExampleCase()
    ensures IsPalindrome("Racecar")
  {
    LowerOfRacecar();
    RacecarIsPalindrome();
    PalindromeIgnoresCase("Racecar");
  }

  lemma RacecarIsPalindrome()
    ensures IsPalindrome("racecar")
  {
    assert Lower("racecar") == "racecar";
    ReverseKeepsRacecar();
    assert NoWhitespace("racecar");
    LowercaseWordPalindrome("racecar");
  }

  /** White space is ignored: "race car" is a palindrome. */
  lemma PalindromeExampleSpace()
    ensures IsPalindrome("race car")
  {
    NormalizeRaceCar();
    ReverseKeepsRacecar();
  }

  lemma NormalizeRaceCar()
    ensures Normalize("race car") == "racecar"
  {
    assert Lower("race car") == "race car";
    assert "race car" == "race" + (" " + "car");
    RemoveSpaceOfRaceCar();
  }

  lemma RemoveSpaceOfRaceCar()
    ensures RemoveWhitespace("race" + (" " + "car")) == "racecar"
  {
    RemoveWhitespaceConcat("race", " " + "car");
    RemoveWhitespaceConcat(" ", "car");
    assert RemoveWhitespace(" ") == [];
    assert NoWhitespace("race") && NoWhitespace("car");
    RemoveWhitespaceKeepsWords("race");
    RemoveWhitespaceKeepsWords("car");
    assert "race" + ([] + "car") == "racecar";
  }

  /** Punctuation is kept: "race.car" is not a palindrome. */
  lemma PalindromeExamplePunctuation()
    ensures !IsPalindrome("race.car")
  {
    assert Lower("race.car") == "race.car";
    assert NoWhitespace("race.car");
    RemoveWhitespaceKeepsWords("race.car");
    assert Reverse("race.car")[3] == '.' && "race.car"[3] == 'e';
  }

  lemma LowerOfRacecar()
    ensures Lower("Racecar") == "racecar"
  {
  }

  /** The example word reads the same both ways; shared by two examples. */
  lemma ReverseKeepsRacecar()
    ensures Reverse("racecar") == "racecar"
  {
  }

  // ---------------------------------------------------------------------
  // Distinct characters and their frequencies

  /** `new Set(value)`: the distinct characters of `value`. */
  function CharSet(value: string): set<char> {
    set c | c in value
  }

  lemma {:induction false} CharSetBound(value: string)
    ensures |CharSet(value)| <= |value|
  {
    if value != [] {
      assert CharSet(value) == CharSet(value[1..]) + {value[0]};
      CharSetBound(value[1..]);
    }
  }

  /** The loop `for (const char of value) map[char] = (map[char] || 0) + 1`,
      one character at a time from the front: every character of `value`
      is a key, and its count is its number of occurrences. */
  function FrequencyMap(value: string): (m: map<char, nat>)
    ensures m.Keys == CharSet(value)
    ensures forall c | c in m :: m[c] == multiset(value)[c]
  {
    if value == [] then map[]
    else
      var prefix := value[..|value| - 1];
      var c := value[|value| - 1];
      var counted := FrequencyMap(prefix);
      assert value == prefix + [c];
      counted[c := (if c in counted then counted[c] else 0) + 1]
  }

  /** The sum of the counts of a frequency map. */
  ghost function SumCounts(m: map<char, nat>): nat
    decreases |m|
  {
    if m == map[] then 0
    else
      var c :| c in m;
      m[c] + SumCounts(m - {c})
  }

  /** The sum does not depend on which key is taken out first. */
  lemma {:induction false} SumCountsRemove(m: map<char, nat>, k: char)
    requires k in m
    ensures SumCounts(m) == m[k] + SumCounts(m - {k})
    decreases |m|
  {
    var c :| c in m && SumCounts(m) == m[c] + SumCounts(m - {c});
    if c != k {
      SumCountsRemove(m - {c}, k);
      SumCountsRemove(m - {k}, c);
      assert m - {c} - {k} == m - {k} - {c};
    }
  }

  /** The counts of the frequency map add up to the number of characters. */
  lemma {:induction false} FrequenciesSumToSize(value: string)
    ensures SumCounts(FrequencyMap(value)) == |value|
  {
    if value != [] {
      var prefix := value[..|value| - 1];
      var c := value[|value| - 1];
      var counted := FrequencyMap(prefix);
      var m := FrequencyMap(value);
      FrequenciesSumToSize(prefix);
      SumCountsRemove(m, c);
      assert m - {c} == counted - {c};
      if c in counted {
        SumCountsRemove(counted, c);
      } else {
        assert counted - {c} == counted;
      }
    }
  }

  // ---------------------------------------------------------------------
  // Words

  /** `value.trim().split(/\s+/).filter(word => word.length > 0)`. */
  function Words(value: string): seq<string> {
    NonEmpty(SplitOnWhitespace(Trim(value)))
  }

  /** The maximal runs of non-white-space characters, left to right: an
      independent definition of what a word is. */
  function MaximalRuns(s: string): (r: seq<string>)
    ensures forall i | 0 <= i < |r| :: r[i] != [] && NoWhitespace(r[i])
    ensures |r| <= |s|
    ensures r == [] <==> AllWhitespace(s)
    decreases |s|
  {
    if s == [] then []
    else if IsWhitespace(s[0]) then
      assert AllWhitespace(s) <==> AllWhitespace(s[1..]) by {
        if AllWhitespace(s[1..]) {
          forall i | 0 <= i < |s| ensures IsWhitespace(s[i]) {
            if i > 0 { assert s[i] == s[1..][i - 1]; }
          }
        }
      }
      MaximalRuns(s[1..])
    else
      var w := TakeWord(s);
      [w] + MaximalRuns(s[|w|..])
  }

  /** The pieces `split` yields after the first word of `u`. */
  function AfterWord(u: string): seq<string> {
    var w := TakeWord(u);
    if |w| == |u| then [] else SplitOnWhitespace(TrimStart(u[|w|..]))
  }

  /** `split(/\s+/)` yields the first word, then the pieces after the white
      space that ends it. */
  lemma {:induction false} SplitShape(u: string)
    ensures SplitOnWhitespace(u) == [TakeWord(u)] + AfterWord(u)
    decreases |u|
  {
    if u == [] {
    } else if IsWhitespace(u[0]) {
      assert u[0..] == u;
    } else {
      SplitShape(u[1..]);
      AfterWordOfCons(u);
    }
  }

  /** A leading word character joins the first piece and leaves the rest alone. */
  lemma AfterWordOfCons(u: string)
    requires u != [] && !IsWhitespace(u[0])
    ensures TakeWord(u) == [u[0]] + TakeWord(u[1..])
    ensures AfterWord(u) == AfterWord(u[1..])
  {
    assert u[1..][|TakeWord(u[1..])|..] == u[|TakeWord(u)|..];
  }

  lemma {:induction false} RunsOfWhitespace(s: string)
    requires AllWhitespace(s)
    ensures MaximalRuns(s) == []
  {
  }

  lemma {:induction false} RunsSkipLeadingWhitespace(s: string)
    ensures MaximalRuns(TrimStart(s)) == MaximalRuns(s)
    decreases |s|
  {
    if s != [] && IsWhitespace(s[0]) {
      RunsSkipLeadingWhitespace(s[1..]);
    }
  }

  /** A prefix that holds no white space and stops at white space or at the
      end is the first word. */
  lemma {:induction false} TakeWordUnique(s: string, w: string)
    requires |w| <= |s| && w == s[..|w|] && NoWhitespace(w)
    requires |w| == |s| || IsWhitespace(s[|w|])
    ensures TakeWord(s) == w
    decreases |s|
  {
    if w != [] {
      TakeWordUnique(s[1..], w[1..]);
    }
  }

  lemma {:induction false} RunsIgnoreTrailingWhitespace(s: string, t: string)
    requires AllWhitespace(t)
    ensures MaximalRuns(s + t) == MaximalRuns(s)
    decreases |s|
  {
    if s == [] {
      assert s + t == t;
      RunsOfWhitespace(t);
    } else if IsWhitespace(s[0]) {
      assert (s + t)[1..] == s[1..] + t;
      RunsIgnoreTrailingWhitespace(s[1..], t);
    } else {
      var w := TakeWord(s);
      TakeWordUnique(s + t, w);
      assert (s + t)[|w|..] == s[|w|..] + t;
      RunsIgnoreTrailingWhitespace(s[|w|..], t);
    }
  }

  lemma {:induction false} NonEmptySplitIsRuns(t: string)
    ensures NonEmpty(SplitOnWhitespace(t)) == MaximalRuns(t)
    decreases |t|
  {
    if t == [] {
    } else if IsWhitespace(t[0]) {
      var pieces := SplitOnWhitespace(TrimStart(t));
      assert SplitOnWhitespace(t) == [[]] + pieces;
      assert ([[]] + pieces)[1..] == pieces;
      NonEmptySplitIsRuns(TrimStart(t));
      RunsSkipLeadingWhitespace(t);
    } else {
      var w := TakeWord(t);
      SplitShape(t);
      var tail := AfterWord(t);
      assert ([w] + tail)[1..] == tail;
      if |w| < |t| {
        NonEmptySplitIsRuns(TrimStart(t[|w|..]));
        RunsSkipLeadingWhitespace(t[|w|..]);
      } else {
        assert t[|w|..] == [];
      }
    }
  }

  /** The words `analyzeString` counts are exactly the maximal non-white-space
      runs of the value. */
  lemma WordsAreMaximalRuns(value: string)
    ensures Words(value) == MaximalRuns(value)
  {
    var start := TrimStart(value);
    var trimmed := TrimEnd(start);
    assert Words(value) == NonEmpty(SplitOnWhitespace(trimmed));
    NonEmptySplitIsRuns(trimmed);
    TrimEndRuns(start);
    RunsSkipLeadingWhitespace(value);
  }

  /** Trailing white space holds no word. */
  lemma TrimEndRuns(s: string)
    ensures MaximalRuns(TrimEnd(s)) == MaximalRuns(s)
  {
    var trimmed := TrimEnd(s);
    var tail := s[|trimmed|..];
    assert s == trimmed + tail;
    RunsIgnoreTrailingWhitespace(trimmed, tail);
  }

  // ---------------------------------------------------------------------
  // The analyzer

  /** `analyzeString(value)`. The value is read as a sequence of characters;
      `length` is its UTF-16 length. What the fields mean is stated by
      `AnalysisMeaning`. */
  function AnalyzeString(value: string, hash: string -> string): (p: StringProperties)
    ensures p.sha256Hash == hash(value)
  {
    StringProperties(
      length := Utf16Length(value),
      isPalindrome := IsPalindrome(value),
      uniqueCharacters := |CharSet(value)|,
      wordCount := |Words(value)|,
      sha256Hash := hash(value),
      characterFrequencyMap := FrequencyMap(value))
  }

  /** The meaning of each field of the analysis: `length` is at least the
      character count and equals it exactly when every character is one
      code unit; the palindrome flag is the normalized comparison; the
      frequency map counts every character of the value and nothing else;
      `uniqueCharacters` is its size; `wordCount` is the number of maximal
      white-space-free runs, zero exactly for blank values. */
  lemma AnalysisMeaning(value: string, hash: string -> string)
    ensures var p := AnalyzeString(value, hash);
      && p.length >= |value| && (AllSingleUnit(value) <==> p.length == |value|)
      && (p.isPalindrome <==> IsPalindrome(value))
      && p.characterFrequencyMap.Keys == CharSet(value)
      && (forall c | c in p.characterFrequencyMap :: p.characterFrequencyMap[c] == multiset(value)[c])
      && p.uniqueCharacters == |p.characterFrequencyMap| <= p.length
      && p.wordCount == |MaximalRuns(value)| <= p.length
      && (p.wordCount == 0 <==> AllWhitespace(value))
  {
    CharSetBound(value);
    WordsAreMaximalRuns(value);
  }

  /** The empty string: length 0, a palindrome, no characters, no words. */
  lemma AnalysisOfEmpty(hash: string -> string)
    ensures AnalyzeString([], hash) == StringProperties(0, true, 0, 0, hash([]), map[])
  {
    AnalysisMeaning([], hash);
  }

  /** Under the single-unit assumption the frequency counts add up to `length`. */
  lemma FrequencyCountsSumToLength(value: string, hash: string -> string)
    requires AllSingleUnit(value)
    ensures SumCounts(AnalyzeString(value, hash).characterFrequencyMap) == AnalyzeString(value, hash).length
  {
    AnalysisMeaning(value, hash);
    FrequenciesSumToSize(value);
  }
}

=== FILE: string_controller.dfy ===
/** The request handlers, with the web framework and the database replaced by
    values: a request body is a JSON value, a query string is a map from
    parameter names to values, the collection is a `Store`, and a query
    against it is the set of records that satisfy a filter document. */
module StringController {
  import opened Wrappers
  import opened JsText
  import opened JsNumber
  import opened StringAnalyzer
  import opened NaturalLanguageParser
  import opened StringAnalysis

  // ---------------------------------------------------------------------
  // Errors

  /** The parameters of the structured listing, in the order they are checked. */
  datatype Param = IsPalindromeParam | MinLengthParam | MaxLengthParam | WordCountParam | ContainsCharacterParam

  /** Each way a handler can refuse a request, with the HTTP status it is
      answered with. */
  datatype Error =
    | MissingValue              // 400
    | InvalidValueType          // 422
    | AlreadyExists             // 409
    | UnstorableKey             // 500: the document cannot be built or encoded, see `HasUnstorableKey`
    | IdCollision               // 500: the unique index on `id` rejects the save
    | NotFound                  // 404
    | InvalidParameter(param: Param)  // 400
    | Unparseable               // 400
    | ConflictingFilters        // 422

  // ---------------------------------------------------------------------
  // Creating, reading and deleting one record

  /** A parsed JSON request-body field; `Compound` is an array or an object. */
  datatype Json = Undefined | Null | Bool(b: bool) | Number(x: real) | Str(s: string) | Compound

  /** JavaScript truthiness of a JSON value. */
  predicate Truthy(j: Json) {
    match j
    case Undefined => false
    case Null => false
    case Bool(b) => b
    case Number(x) => x != 0.0
    case Str(s) => s != []
    case Compound => true
  }

  /** Some record of the collection already has this id. */
  predicate IdTaken(store: Store, id: string) {
    exists v | v in store :: store[v].id == id
  }

  /** A key the stored document can hold. Mongoose refuses a key of a `Map`
      path that starts with '$' or contains '.', when the document is built;
      the BSON encoding refuses a key holding the null character, since BSON
      keys are null-terminated, when the document is saved. */
  predicate MapKeyAllowed(key: string) {
    !(key != [] && key[0] == '$') && '.' !in key && '\0' !in key
  }

  /** The frequency map has one key per distinct character of `value`
      (`StringAnalyzer.FrequencyMap`); some key is refused, so building or
      encoding the document throws and the catch-all handler answers 500. */
  predicate HasUnstorableKey(value: string) {
    exists c | c in value :: !MapKeyAllowed([c])
  }

  /** The refused keys are exactly the characters '.', '$' and the null
      character. */
  lemma UnstorableKeyMeans(value: string)
    ensures HasUnstorableKey(value) <==> '.' in value || '$' in value || '\0' in value
  {
    if '.' in value {
      assert !MapKeyAllowed(['.']);
    }
    if '$' in value {
      assert ['$'][0] == '$';
    }
  }

  /** `store'` is `store` with `record` added under its value, which was absent. */
  predicate Inserted(store: Store, store': Store, record: StringRecord) {
    && record.value !in store
    && store'.Keys == store.Keys + {record.value}
    && store'[record.value] == record
    && (forall v | v in store :: store'[v] == store[v])
  }

  /** The checks on the body field of `POST /strings`: a falsy value is
      missing, a truthy non-string has the wrong type. */
  function ReadValue(body: Json): (r: Result<string, Error>)
    ensures r == Failure(MissingValue) <==> !Truthy(body)
    ensures r == Failure(InvalidValueType) <==> Truthy(body) && !body.Str?
    ensures r.Success? <==> body.Str? && body.s != []
    ensures r.Success? ==> body == Str(r.value)
  {
    if !Truthy(body) then Failure(MissingValue)
    else if !body.Str? then Failure(InvalidValueType)
    else Success(body.s)
  }

  /** Storing the analysis of a new value: a value already present is
      refused; so is a value whose frequency map has a key Mongoose refuses,
      and, when the document is saved, a digest some record already has as
      its id. */
  function StoreAnalysis(store: Store, value: string, hash: string -> string): (r: Result<(Store, StringRecord), Error>)
    requires value != []
    ensures r == Failure(AlreadyExists) <==> value in store
    ensures r == Failure(UnstorableKey) <==> value !in store && HasUnstorableKey(value)
    ensures r == Failure(IdCollision) <==> value !in store && !HasUnstorableKey(value) && IdTaken(store, hash(value))
    ensures r.Failure? ==> r.error in {AlreadyExists, UnstorableKey, IdCollision}
    ensures r.Success? ==>
      && r.value.1.value == value
      && WellFormedRecord(value, r.value.1, hash)
      && Inserted(store, r.value.0, r.value.1)
  {
    if value in store then Failure(AlreadyExists)
    else if HasUnstorableKey(value) then Failure(UnstorableKey)
    else if IdTaken(store, hash(value)) then Failure(IdCollision)
    else
      var record := NewRecord(value, hash);
      InsertedByUpdate(store, record);
      Success((store[value := record], record))
  }

  lemma InsertedByUpdate(store: Store, record: StringRecord)
    requires record.value !in store
    ensures Inserted(store, store[record.value := record], record)
  {
  }

  /** The record saved for a value: the digest as id, the analysis as properties. */
  function NewRecord(value: string, hash: string -> string): (record: StringRecord)
    requires value != []
    ensures WellFormedRecord(value, record, hash)
  {
    var properties := AnalyzeString(value, hash);
    StringRecord(properties.sha256Hash, value, properties)
  }

  /** `POST /strings` with body field `value`: the new collection and the
      record created. */
  function CreateString(store: Store, body: Json, hash: string -> string): (r: Result<(Store, StringRecord), Error>)
    ensures r == Failure(MissingValue) <==> !Truthy(body)
    ensures r == Failure(InvalidValueType) <==> Truthy(body) && !body.Str?
    ensures r == Failure(AlreadyExists) <==> body.Str? && body.s != [] && body.s in store
    ensures r == Failure(UnstorableKey) <==> body.Str? && body.s != [] && body.s !in store && HasUnstorableKey(body.s)
    ensures r == Failure(IdCollision) <==>
      body.Str? && body.s != [] && body.s !in store && !HasUnstorableKey(body.s) && IdTaken(store, hash(body.s))
    ensures r.Failure? ==> r.error in {MissingValue, InvalidValueType, AlreadyExists, UnstorableKey, IdCollision}
    ensures r.Success? ==>
      && body == Str(r.value.1.value)
      && WellFormedRecord(r.value.1.value, r.value.1, hash)
      && Inserted(store, r.value.0, r.value.1)
  {
    var value :- ReadValue(body);
    StoreAnalysis(store, value, hash)
  }

  /** `GET /strings/:value`: the record whose value field is `value`. */
  function GetString(store: Store, value: string): (r: Result<StringRecord, Error>)
    ensures r.Failure? ==> r.error == NotFound
    ensures r.Success? ==> r.value in store.Values
    ensures (forall v | v in store :: store[v].value == v) ==>
      && (r.Success? <==> exists record | record in store.Values :: record.value == value)
      && (r.Success? ==> r.value.value == value)
  {
    if value in store then Success(store[value]) else Failure(NotFound)
  }

  /** `DELETE /strings/:value`: the collection without that record. */
  function DeleteString(store: Store, value: string): (r: Result<Store, Error>)
    ensures r.Failure? <==> value !in store
    ensures r.Failure? ==> r.error == NotFound
    ensures r.Success? ==>
      && r.value.Keys == store.Keys - {value}
      && (forall v | v in r.value :: r.value[v] == store[v])
  {
    if value in store then Success(store - {value}) else Failure(NotFound)
  }

  /** Creation keeps the collection invariant: the new record is well
      formed, and its id is new because a clashing id is refused. */
  lemma CreateKeepsValidity(store: Store, body: Json, hash: string -> string)
    requires ValidStore(store, hash) && CreateString(store, body, hash).Success?
    ensures ValidStore(CreateString(store, body, hash).value.0, hash)
  {
    var r := CreateString(store, body, hash);
    assert r != Failure(IdCollision);
    InsertKeepsValidity(store, r.value.0, r.value.1, hash);
  }

  lemma InsertKeepsValidity(store: Store, store': Store, record: StringRecord, hash: string -> string)
    requires ValidStore(store, hash)
    requires WellFormedRecord(record.value, record, hash) && !IdTaken(store, record.id)
    requires Inserted(store, store', record)
    ensures ValidStore(store', hash)
  {
    forall v | v in store' ensures WellFormedRecord(v, store'[v], hash) {
      if v in store {
        assert store'[v] == store[v];
      }
    }
    InsertKeepsIdsDistinct(store, store', record);
  }

  /** Ids stay pairwise distinct when the new record's id is not taken. */
  lemma InsertKeepsIdsDistinct(store: Store, store': Store, record: StringRecord)
    requires forall v, w | v in store && w in store && v != w :: store[v].id != store[w].id
    requires !IdTaken(store, record.id) && Inserted(store, store', record)
    ensures forall v, w | v in store' && w in store' && v != w :: store'[v].id != store'[w].id
  {
    forall v, w | v in store' && w in store' && v != w ensures store'[v].id != store'[w].id {
      if v == record.value {
        assert w in store && store'[w] == store[w];
      } else if w == record.value {
        assert v in store && store'[v] == store[v];
      } else {
        assert store'[v] == store[v] && store'[w] == store[w];
      }
    }
  }

  /** The empty string is never stored: it is refused as missing. */
  lemma EmptyValueRefused(store: Store, hash: string -> string)
    ensures CreateString(store, Str([]), hash) == Failure(MissingValue)
  {
  }

  /** A new value whose digest is no record's id is created unless it holds
      '.', '$' or the null character, and is then found again with the record that was created. */
  lemma GetAfterCreate(store: Store, value: string, hash: string -> string)
    requires value != [] && value !in store && !IdTaken(store, hash(value))
    ensures CreateString(store, Str(value), hash).Success? <==> '.' !in value && '$' !in value && '\0' !in value
    ensures CreateString(store, Str(value), hash).Success? ==>
      var (store', record) := CreateString(store, Str(value), hash).value;
      GetString(store', value) == Success(record)
  {
    UnstorableKeyMeans(value);
  }

  /** Creating the same value twice is refused the second time. */
  lemma CreateTwiceRefused(store: Store, value: string, hash: string -> string)
    requires value != [] && value !in store && !IdTaken(store, hash(value))
    ensures CreateString(store, Str(value), hash).Success? <==> '.' !in value && '$' !in value && '\0' !in value
    ensures CreateString(store, Str(value), hash).Success? ==>
      CreateString(CreateString(store, Str(value), hash).value.0, Str(value), hash) == Failure(AlreadyExists)
  {
    UnstorableKeyMeans(value);
  }

  /** Deleting what was just created restores the collection. */
  lemma DeleteUndoesCreate(store: Store, value: string, hash: string -> string)
    requires value != [] && value !in store && !IdTaken(store, hash(value))
    ensures CreateString(store, Str(value), hash).Success? <==> '.' !in value && '$' !in value && '\0' !in value
    ensures CreateString(store, Str(value), hash).Success? ==>
      DeleteString(CreateString(store, Str(value), hash).value.0, value) == Success(store)
  {
    UnstorableKeyMeans(value);
    if CreateString(store, Str(value), hash).Success? {
      var (store', record) := CreateString(store, Str(value), hash).value;
      RemoveInserted(store, store', record);
    }
  }

  /** "race.car" cannot be stored: its frequency map would need the key ".". */
  lemma DottedValueRefused(store: Store, hash: string -> string)
    requires "race.car" !in store
    ensures CreateString(store, Str("race.car"), hash) == Failure(UnstorableKey)
  {
    assert "race.car"[4] == '.';
    UnstorableKeyMeans("race.car");
  }

  /** "a\0b" cannot be stored: its frequency map would need a null key. */
  lemma NullCharacterRefused(store: Store, hash: string -> string)
    requires "a\0b" !in store
    ensures CreateString(store, Str("a\0b"), hash) == Failure(UnstorableKey)
  {
    assert "a\0b"[1] == '\0';
    UnstorableKeyMeans("a\0b");
  }

  lemma RemoveInserted(store: Store, store': Store, record: StringRecord)
    requires Inserted(store, store', record)
    ensures store' - {record.value} == store
  {
    var back := store' - {record.value};
    assert back.Keys == store.Keys;
  }

  /** After a deletion the value is no longer found, and the collection
      invariant still holds. */
  lemma DeleteRemovesOnlyThat(store: Store, value: string, hash: string -> string)
    requires ValidStore(store, hash) && DeleteString(store, value).Success?
    ensures GetString(DeleteString(store, value).value, value) == Failure(NotFound)
    ensures ValidStore(DeleteString(store, value).value, hash)
    ensures forall v | v in store && v != value :: GetString(DeleteString(store, value).value, v) == GetString(store, v)
  {
    var store' := DeleteString(store, value).value;
    assert store' == store - {value};
    forall v | v in store' ensures WellFormedRecord(v, store'[v], hash) {
      assert store'[v] == store[v];
    }
  }

  // ---------------------------------------------------------------------
  // Filters and what they select

  /** One condition of a database filter document. */
  datatype Condition =
    | PalindromeIs(b: bool)
    | LengthAtLeast(n: int)
    | LengthAtMost(n: int)
    | WordCountIs(n: int)
    | ValueContains(c: char)

  /** A case-insensitive one-character regular expression without
      metacharacters: the letter occurs in the value, ignoring ASCII case. */
  predicate ContainsIgnoringCase(value: string, c: char) {
    exists i | 0 <= i < |value| :: LowerChar(value[i]) == LowerChar(c)
  }

  /** A record satisfies a condition of the filter document. */
  predicate Satisfies(record: StringRecord, cond: Condition) {
    match cond
    case PalindromeIs(b) => record.properties.isPalindrome == b
    case LengthAtLeast(n) => record.properties.length >= n
    case LengthAtMost(n) => record.properties.length <= n
    case WordCountIs(n) => record.properties.wordCount == n
    case ValueContains(c) => ContainsIgnoringCase(record.value, c)
  }

  /** The filter document built from a filter record, one condition per
      present field, in the order the handlers add them. */
  function FilterDocument(f: ParsedFilters): (doc: seq<Condition>)
    ensures forall cond :: cond in doc <==> Describes(f, cond)
  {
    (match f.isPalindrome case Some(b) => [PalindromeIs(b)] case None => [])
    + (match f.minLength case Some(n) => [LengthAtLeast(n)] case None => [])
    + (match f.maxLength case Some(n) => [LengthAtMost(n)] case None => [])
    + (match f.wordCount case Some(n) => [WordCountIs(n)] case None => [])
    + (match f.containsCharacter case Some(c) => [ValueContains(c)] case None => [])
  }

  /** The condition constrains a field of the filter record to its value. */
  predicate Describes(f: ParsedFilters, cond: Condition) {
    match cond
    case PalindromeIs(b) => f.isPalindrome == Some(b)
    case LengthAtLeast(n) => f.minLength == Some(n)
    case LengthAtMost(n) => f.maxLength == Some(n)
    case WordCountIs(n) => f.wordCount == Some(n)
    case ValueContains(c) => f.containsCharacter == Some(c)
  }

  /** The conjunction of the constraints of the filter record's present fields. */
  predicate Matches(f: ParsedFilters, record: StringRecord) {
    && (f.isPalindrome.Some? ==> record.properties.isPalindrome == f.isPalindrome.value)
    && (f.minLength.Some? ==> record.properties.length >= f.minLength.value)
    && (f.maxLength.Some? ==> record.properties.length <= f.maxLength.value)
    && (f.wordCount.Some? ==> record.properties.wordCount == f.wordCount.value)
    && (f.containsCharacter.Some? ==> ContainsIgnoringCase(record.value, f.containsCharacter.value))
  }

  /** A record satisfies every condition of the document exactly when it
      matches the filter record. */
  lemma DocumentMeansMatches(f: ParsedFilters, record: StringRecord)
    ensures (forall cond | cond in FilterDocument(f) :: Satisfies(record, cond)) <==> Matches(f, record)
  {
    var doc := FilterDocument(f);
    if Matches(f, record) {
      forall cond | cond in doc ensures Satisfies(record, cond) {
        assert Describes(f, cond);
      }
    } else if f.isPalindrome.Some? && record.properties.isPalindrome != f.isPalindrome.value {
      assert PalindromeIs(f.isPalindrome.value) in doc;
    } else if f.minLength.Some? && record.properties.length < f.minLength.value {
      assert LengthAtLeast(f.minLength.value) in doc;
    } else if f.maxLength.Some? && record.properties.length > f.maxLength.value {
      assert LengthAtMost(f.maxLength.value) in doc;
    } else if f.wordCount.Some? && record.properties.wordCount != f.wordCount.value {
      assert WordCountIs(f.wordCount.value) in doc;
    } else {
      assert ValueContains(f.containsCharacter.value) in doc;
    }
  }

  /** `find(filter)`: the records satisfying every condition of the document. */
  function Find(store: Store, f: ParsedFilters): (found: set<StringRecord>)
    ensures forall record :: record in found <==> record in store.Values && Matches(f, record)
  {
    var doc := FilterDocument(f);
    var found := set v | v in store && (forall cond | cond in doc :: Satisfies(store[v], cond)) :: store[v];
    forall record ensures record in found <==> record in store.Values && Matches(f, record) {
      DocumentMeansMatches(f, record);
    }
    found
  }

  /** With no field present, every record is selected. */
  lemma EmptyFilterSelectsAll(store: Store)
    ensures Find(store, NoFilters) == store.Values
  {
  }

  /** For a record of a valid collection, matching is a statement about its
      value: its UTF-16 length, its palindrome status, its number of
      white-space separated words and the letters it contains. */
  lemma StoredRecordMatches(store: Store, hash: string -> string, f: ParsedFilters, v: string)
    requires ValidStore(store, hash) && v in store
    ensures Matches(f, store[v]) <==>
      && (f.isPalindrome.Some? ==> (IsPalindrome(v) <==> f.isPalindrome.value))
      && (f.minLength.Some? ==> Utf16Length(v) >= f.minLength.value)
      && (f.maxLength.Some? ==> Utf16Length(v) <= f.maxLength.value)
      && (f.wordCount.Some? ==> |MaximalRuns(v)| == f.wordCount.value)
      && (f.containsCharacter.Some? ==> ContainsIgnoringCase(v, f.containsCharacter.value))
  {
    assert WellFormedRecord(v, store[v], hash);
    AnalysisMeaning(v, hash);
  }

  /** A lower bound above the upper bound selects nothing. */
  lemma CrossedBoundsSelectNothing(store: Store, f: ParsedFilters)
    requires f.minLength.Some? && f.maxLength.Some? && f.minLength.value > f.maxLength.value
    ensures Find(store, f) == {}
  {
    assert forall record :: !Matches(f, record);
  }

  // ---------------------------------------------------------------------
  // The structured listing

  /** A query-string value: a plain string, or an array or object (from a
      repeated or bracketed parameter), which `parseInt` first turns into
      the string `coerced`. */
  datatype QueryParam = Text(s: string) | Composite(coerced: string)

  /** The parsed query string; absent parameters are absent keys. */
  type Query = map<string, QueryParam>

  /** `String(p)`. */
  function Coerce(p: QueryParam): string {
    match p
    case Text(s) => s
    case Composite(c) => c
  }

  function Key(p: Param): string {
    match p
    case IsPalindromeParam => "is_palindrome"
    case MinLengthParam => "min_length"
    case MaxLengthParam => "max_length"
    case WordCountParam => "word_count"
    case ContainsCharacterParam => "contains_character"
  }

  /** The position of a parameter in the order of the checks. */
  function Rank(p: Param): nat {
    match p
    case IsPalindromeParam => 0
    case MinLengthParam => 1
    case MaxLengthParam => 2
    case WordCountParam => 3
    case ContainsCharacterParam => 4
  }

  /** What each parameter must look like when present: a boolean is the
      text "true" or "false"; a number opens, after white space, with an
      optional sign and a digit; a character is a string one UTF-16 unit long. */
  predicate ParamValid(query: Query, p: Param) {
    Key(p) !in query ||
    match p
    case IsPalindromeParam => query[Key(p)] == Text("true") || query[Key(p)] == Text("false")
    case ContainsCharacterParam => query[Key(p)].Text? && Utf16Length(query[Key(p)].s) == 1
    case _ => StartsWithNumber(TrimStart(Coerce(query[Key(p)])))
  }

  /** Every parameter is valid; the five checks in their order. */
  predicate AllParamsValid(query: Query) {
    && ParamValid(query, IsPalindromeParam)
    && ParamValid(query, MinLengthParam)
    && ParamValid(query, MaxLengthParam)
    && ParamValid(query, WordCountParam)
    && ParamValid(query, ContainsCharacterParam)
  }

  /** The first parameter, in the order of the checks, that is not valid. */
  function FirstInvalid(query: Query): (p: Param)
    requires !AllParamsValid(query)
    ensures !ParamValid(query, p)
    ensures forall q: Param | Rank(q) < Rank(p) :: ParamValid(query, q)
  {
    if !ParamValid(query, IsPalindromeParam) then IsPalindromeParam
    else if !ParamValid(query, MinLengthParam) then MinLengthParam
    else if !ParamValid(query, MaxLengthParam) then MaxLengthParam
    else if !ParamValid(query, WordCountParam) then WordCountParam
    else ContainsCharacterParam
  }

  /** The filter record holds exactly the parameters present in the query,
      each with its parsed value: the boolean read from "true", the integer
      `parseInt` reads, the single character. */
  predicate Reflects(query: Query, f: ParsedFilters) {
    && (f.isPalindrome.Some? <==> Key(IsPalindromeParam) in query)
    && (f.isPalindrome.Some? ==> (f.isPalindrome.value <==> query[Key(IsPalindromeParam)] == Text("true")))
    && (f.minLength.Some? <==> Key(MinLengthParam) in query)
    && (f.minLength.Some? ==> ParseInt(Coerce(query[Key(MinLengthParam)])) == f.minLength)
    && (f.maxLength.Some? <==> Key(MaxLengthParam) in query)
    && (f.maxLength.Some? ==> ParseInt(Coerce(query[Key(MaxLengthParam)])) == f.maxLength)
    && (f.wordCount.Some? <==> Key(WordCountParam) in query)
    && (f.wordCount.Some? ==> ParseInt(Coerce(query[Key(WordCountParam)])) == f.wordCount)
    && (f.containsCharacter.Some? <==> Key(ContainsCharacterParam) in query)
    && (f.containsCharacter.Some? ==> query[Key(ContainsCharacterParam)] == Text([f.containsCharacter.value]))
  }

  function ReadPalindromeParam(query: Query): (r: Result<Option<bool>, Error>)
    ensures r.Failure? <==> !ParamValid(query, IsPalindromeParam)
    ensures r.Failure? ==> r.error == InvalidParameter(IsPalindromeParam)
    ensures r.Success? ==> (r.value.Some? <==> Key(IsPalindromeParam) in query)
    ensures r.Success? && r.value.Some? ==> (r.value.value <==> query[Key(IsPalindromeParam)] == Text("true"))
  {
    var key := Key(IsPalindromeParam);
    if key !in query then Success(None)
    else if query[key] != Text("true") && query[key] != Text("false") then Failure(InvalidParameter(IsPalindromeParam))
    else Success(Some(query[key] == Text("true")))
  }

  function ReadIntParam(query: Query, p: Param): (r: Result<Option<int>, Error>)
    requires p in {MinLengthParam, MaxLengthParam, WordCountParam}
    ensures r.Failure? <==> !ParamValid(query, p)
    ensures r.Failure? ==> r.error == InvalidParameter(p)
    ensures r.Success? ==> (r.value.Some? <==> Key(p) in query)
    ensures r.Success? && r.value.Some? ==> ParseInt(Coerce(query[Key(p)])) == r.value
  {
    if Key(p) !in query then Success(None)
    else
      match ParseInt(Coerce(query[Key(p)]))
      case None => Failure(InvalidParameter(p))
      case Some(n) => Success(Some(n))
  }

  function ReadCharParam(query: Query): (r: Result<Option<char>, Error>)
    ensures r.Failure? <==> !ParamValid(query, ContainsCharacterParam)
    ensures r.Failure? ==> r.error == InvalidParameter(ContainsCharacterParam)
    ensures r.Success? ==> (r.value.Some? <==> Key(ContainsCharacterParam) in query)
    ensures r.Success? && r.value.Some? ==> query[Key(ContainsCharacterParam)] == Text([r.value.value])
  {
    var key := Key(ContainsCharacterParam);
    if key !in query then Success(None)
    else if !query[key].Text? || Utf16Length(query[key].s) != 1 then Failure(InvalidParameter(ContainsCharacterParam))
    else Success(Some(query[key].s[0]))
  }

  /** The parameter checks of `GET /strings`, in order: the first invalid
      parameter is reported. On success the filter record (which is also the
      reported `filters_applied`) reflects the query; other parameters are
      ignored. */
  function ValidateQuery(query: Query): (r: Result<ParsedFilters, Error>)
    ensures r.Success? <==> AllParamsValid(query)
    ensures r.Failure? ==> !AllParamsValid(query) && r.error == InvalidParameter(FirstInvalid(query))
    ensures r.Success? ==> Reflects(query, r.value)
  {
    var isPalindrome :- ReadPalindromeParam(query);
    var minLength :- ReadIntParam(query, MinLengthParam);
    var maxLength :- ReadIntParam(query, MaxLengthParam);
    var wordCount :- ReadIntParam(query, WordCountParam);
    var containsCharacter :- ReadCharParam(query);
    Success(ParsedFilters(isPalindrome, minLength, maxLength, wordCount, containsCharacter))
  }

  /** The body of a successful listing. */
  datatype Listing = Listing(data: set<StringRecord>, count: nat, filtersApplied: ParsedFilters)

  /** `GET /strings`: the records matching the structured parameters. No
      check compares the two length bounds on this path. */
  function GetAllStrings(store: Store, query: Query): (r: Result<Listing, Error>)
    ensures r.Failure? <==> !AllParamsValid(query)
    ensures r.Failure? ==> r.error == InvalidParameter(FirstInvalid(query))
    ensures r.Success? ==> Reflects(query, r.value.filtersApplied)
    ensures r.Success? ==>
      && (forall record :: record in r.value.data <==> record in store.Values && Matches(r.value.filtersApplied, record))
      && r.value.count == |r.value.data|
  {
    var f :- ValidateQuery(query);
    var data := Find(store, f);
    Success(Listing(data, |data|, f))
  }

  /** A rendered integer bound is read back as that integer. */
  lemma ValidateRendered(n: int)
    ensures ValidateQuery(map[Key(MinLengthParam) := Text(IntToString(n))]) == Success(NoFilters.(minLength := Some(n)))
  {
    var q := map[Key(MinLengthParam) := Text(IntToString(n))];
    OnlyMinLength(q, n);
    ReadRendered(q, MinLengthParam, n);
  }

  lemma OnlyMinLength(q: Query, n: int)
    requires q == map[Key(MinLengthParam) := Text(IntToString(n))]
    ensures Key(IsPalindromeParam) !in q && Key(MaxLengthParam) !in q
    ensures Key(WordCountParam) !in q && Key(ContainsCharacterParam) !in q
  {
    KeysDistinct();
  }

  lemma ReadRendered(q: Query, p: Param, n: int)
    requires p in {MinLengthParam, MaxLengthParam, WordCountParam}
    requires Key(p) in q && q[Key(p)] == Text(IntToString(n))
    ensures ReadIntParam(q, p) == Success(Some(n))
  {
    ParseIntRoundTrip(n, []);
    assert IntToString(n) + [] == IntToString(n);
  }

  /** The five parameter names differ. */
  lemma KeysDistinct()
    ensures forall p: Param, p': Param | p != p' :: Key(p) != Key(p')
  {
  }

  /** Parameters other than the five are ignored. */
  lemma UnknownParamsIgnored(query: Query, key: string, value: QueryParam)
    requires forall p: Param :: key != Key(p)
    ensures ValidateQuery(query[key := value]) == ValidateQuery(query)
  {
    OnlyParamsMatter(query[key := value], query);
  }

  /** Two queries that agree on the five parameters validate alike. */
  lemma OnlyParamsMatter(q1: Query, q2: Query)
    requires forall p: Param :: (Key(p) in q1 <==> Key(p) in q2) && (Key(p) in q1 ==> q1[Key(p)] == q2[Key(p)])
    ensures ValidateQuery(q1) == ValidateQuery(q2)
  {
    assert ReadPalindromeParam(q1) == ReadPalindromeParam(q2);
    assert ReadIntParam(q1, MinLengthParam) == ReadIntParam(q2, MinLengthParam);
    assert ReadIntParam(q1, MaxLengthParam) == ReadIntParam(q2, MaxLengthParam);
    assert ReadIntParam(q1, WordCountParam) == ReadIntParam(q2, WordCountParam);
    assert ReadCharParam(q1) == ReadCharParam(q2);
  }

  /** Crossed structured bounds are not refused: the listing is just empty. */
  lemma StructuredCrossedBoundsEmpty(store: Store, query: Query)
    requires GetAllStrings(store, query).Success?
    requires var f := GetAllStrings(store, query).value.filtersApplied;
      f.minLength.Some? && f.maxLength.Some? && f.minLength.value > f.maxLength.value
    ensures GetAllStrings(store, query).value.data == {}
    ensures GetAllStrings(store, query).value.count == 0
  {
    CrossedBoundsSelectNothing(store, GetAllStrings(store, query).value.filtersApplied);
  }

  // ---------------------------------------------------------------------
  // The natural-language listing

  /** JavaScript truthiness of an optional number: present and non-zero. */
  predicate TruthyNumber(n: Option<int>) {
    n.Some? && n.value != 0
  }

  /** The conflict test: both bounds truthy and the lower above the upper. */
  predicate HasConflict(f: ParsedFilters) {
    TruthyNumber(f.minLength) && TruthyNumber(f.maxLength) && f.minLength.value > f.maxLength.value
  }

  /** A reported conflict is real: such a filter selects nothing. */
  lemma ConflictSelectsNothing(store: Store, f: ParsedFilters)
    requires HasConflict(f)
    ensures Find(store, f) == {}
  {
    CrossedBoundsSelectNothing(store, f);
  }

  /** The truthiness test misses an upper bound of 0: a positive lower bound
      with it is not reported, and the listing is merely empty. */
  lemma ZeroUpperBoundNotReported(store: Store, f: ParsedFilters)
    requires f.minLength.Some? && f.minLength.value > 0 && f.maxLength == Some(0)
    ensures !HasConflict(f)
    ensures Find(store, f) == {}
  {
    CrossedBoundsSelectNothing(store, f);
  }

  /** The body of a successful natural-language listing. */
  datatype NaturalListing = NaturalListing(data: set<StringRecord>, count: nat, original: string, parsedFilters: ParsedFilters)

  /** `GET /strings/filter-by-natural-language?query=…`. */
  function FilterByNaturalLanguage(store: Store, query: Query): (r: Result<NaturalListing, Error>)
    ensures r == Failure(Unparseable) <==> !("query" in query && query["query"].Text? && query["query"].s != [])
    ensures r == Failure(ConflictingFilters) <==>
      && "query" in query && query["query"].Text? && query["query"].s != []
      && var f := ParseNaturalLanguageQuery(query["query"].s);
         f.minLength.Some? && f.maxLength.Some? && f.minLength.value != 0 && f.maxLength.value != 0
         && f.minLength.value > f.maxLength.value
    ensures r.Success? <==>
      && "query" in query && query["query"].Text? && query["query"].s != []
      && !HasConflict(ParseNaturalLanguageQuery(query["query"].s))
    ensures r.Success? ==>
      && query["query"] == Text(r.value.original)
      && r.value.parsedFilters == ParseNaturalLanguageQuery(r.value.original)
      && (forall record :: record in r.value.data <==> record in store.Values && Matches(r.value.parsedFilters, record))
      && r.value.count == |r.value.data|
  {
    if "query" !in query || !query["query"].Text? || query["query"].s == [] then Failure(Unparseable)
    else
      var text := query["query"].s;
      var parsed := ParseNaturalLanguageQuery(text);
      if HasConflict(parsed) then Failure(ConflictingFilters)
      else
        var data := Find(store, parsed);
        Success(NaturalListing(data, |data|, text, parsed))
  }
}

=== FILE: wrappers.dfy ===
/** Optional values and success-or-error results, used for the fields of a
    filter record and for the error paths of the controller operations. */
module Wrappers {

  /** A value that may be absent (`undefined` in JavaScript). */
  datatype Option<+T> = None | Some(value: T)

  /** The outcome of an operation that can fail with an error value. It
      supports `:-`, which hands a failure on unchanged. */
  datatype Result<+R, +E> = Success(value: R) | Failure(error: E)
  {
    predicate IsFailure() {
      Failure?
    }

    function PropagateFailure<U>(): Result<U, E>
      requires Failure?
    {
      Failure(error)
    }

    function Extract(): R
      requires Success?
    {
      value
    }
  }
}
